=== FILE: README.md ===
# Blob detector: discrete core in Dafny

This project models the integer and grid half of a small C++ blob detector.
The detector blurs a grayscale image and takes its Sobel gradient. It then
binarises the gradient with Otsu's method and labels 8-connected foreground
components. Each component is turned into a bounding box, and a box is drawn
when it is large enough and dense enough in foreground.

The model covers the integer and grid logic after the floating-point filters:

- **Histogram side of Otsu** (`Binarization`): the 256-bin histogram, its running
  sum, the argmax over per-bin variances, and the final 0/255 thresholding.
- **Component labelling** (`Borders`): the breadth-first flood fill and the
  row-major scan that seeds it.
- **Grouping** (`Grouping`): the driver's grouping of the label grid into one
  coordinate list per label.
- **Bounding boxes** (`Boxes`).
- **Driver steps** (`Driver`): the size filter, the foreground count over a box's
  region, and the acceptance test.

Grids are `seq<seq<int>>` values. The source's in-place updates of
`std::vector` grids become methods that return the updated grid. `Grids`
holds the shared vocabulary: coordinates, shapes, bounds and 8-neighbourhoods.

The central invariant of the labeller is `Borders.Labelling`. It says:

- labels sit only on foreground;
- labels lie in 1..count;
- labels are closed under 8-adjacency;
- every label has a seed that is its first pixel in row-major order;
- every labelled pixel is reachable from its label's seed through foreground.

Together with `Grouping.Canonical` (new labels first appear in increasing
order), this is what makes the driver's list-growing trick index in range.

## Model

| member | source | states |
|---|---|---|
| Grids.CheckBoundary | utils.cpp:100-103 | a coordinate pair is in bounds when both parts are non-negative and below the row and column counts |
| Grids.CheckBoundaryInGrid | utils.cpp:100-103 | the bounds test accepts exactly the coordinates of a pixel of a rectangular raster |
| Binarization.ComputeHistogram | utils.cpp:3-17 | 256 bins; bin `v` equals the number of pixels of intensity `v`; the bins add up to the number of pixels |
| Binarization.PixelCountOfRect | utils.cpp:52 | a rows-by-cols raster has rows*cols pixels, so the histogram total is `image.size() * image[0].size()` |
| Binarization.ComputeCumulativeSum | utils.cpp:19-31 | same length; entry `i` is the sum of inputs 0..i; consecutive differences give back the input; the last entry is the total; non-negative input gives a non-decreasing output |
| Binarization.PrefixSumMonotone | utils.cpp:19-31 | over non-negative values a longer prefix never has a smaller sum |
| Binarization.SelectOtsuThreshold | utils.cpp:55-75 | result in 0..255; 0 when no variance exceeds 0; otherwise the first index of the largest variance; a NaN bin never wins the comparison |
| Binarization.FirstMaximumUnique | utils.cpp:68-72 | at most one index is the first maximum, so the argmax result is determined |
| Binarization.BinaryThreshold | utils.cpp:78-87 | writes only 0 or 255; 255 exactly where input >= threshold; cells outside the input's extent keep their old value; on same-shaped grids the result is the pure thresholding |
| Binarization.BinarizeIdempotent | utils.cpp:84 | thresholding a thresholded image at a level in (0, 255] changes nothing |
| Binarization.BinarizeAntitone | utils.cpp:84 | a pixel that is foreground at a higher threshold is foreground at every lower one |
| Borders.VisitWindow | utils.cpp:120-133 | changes only unlabelled foreground pixels, to the new label; afterwards no foreground pixel of the 3x3 window is unlabelled; the queue only grows at the back, by exactly the relabelled pixels, each queued once; a grown queue means fewer unlabelled pixels |
| Borders.BfsStep | utils.cpp:114-134 | one queue iteration keeps the flood-fill invariant: every relabelled pixel has a foreground path from the seed and is processed or still queued |
| Borders.Bfs | utils.cpp:106-135 | terminates; only pixels that were 0 and foreground change, each to the label; each changed pixel is reachable from the seed through 8-adjacent foreground; the seed and every changed pixel end with no unlabelled foreground neighbour |
| Borders.ClosedAfterFill | utils.cpp:152-155 | seeding an unlabelled foreground pixel and flood-filling from it keeps labels closed under 8-adjacency |
| Borders.LabellingAfterFill | utils.cpp:152-155 | a new component keeps the labelling invariant, with one more label whose seed is the scanned pixel; pixels before it in the scan keep their labels |
| Borders.LabelPixel | utils.cpp:150-157 | one scan step keeps the scan invariant; the label count grows exactly on an unlabelled foreground pixel; existing labels are never changed |
| Borders.ScanRow | utils.cpp:150-157 | scanning a row keeps the scan invariant to the end of the row, with a non-decreasing label count |
| Borders.Cca | utils.cpp:139-159 | from the all-zero grid: label 0 exactly on background; 8-adjacent foreground pixels share a label; labels in 0..count and canonical in row-major order; label k+1's seed is its first pixel in scan order; every labelled pixel is reachable from its seed |
| Grouping.GroupStep | main.cpp:54-61 | one grouping step succeeds exactly for a label in 0..lists+1; a label above the list count allocates one list; a non-zero label appends its coordinate to list label-1 and changes no other list; a negative label allocates a list and then yields `None`, because the source converts it to a huge `size_t` in the comparison and then indexes at label-1 |
| Grouping.Group | main.cpp:50-63 | the grouping loop stays in range exactly when the scan is canonical, and then makes one list per label up to the largest |
| Grouping.GroupLabels | main.cpp:48-63 | grouping a label grid succeeds exactly when its row-major scan is canonical, with max-label lists |
| Grouping.GroupCanonical | main.cpp:50-63 | on a canonical scan the grouping never indexes out of range, makes exactly max-label lists, and list L-1 is non-empty and holds exactly the coordinates labelled L, in scan order |
| Grouping.GroupLabelsSound | main.cpp:48-63 | grouping a label grid with a canonical scan succeeds; list k holds exactly the pixels labelled k+1 and is non-empty |
| Grouping.ScanCells | main.cpp:50-53 | the row-major scan visits every cell exactly with its label and nothing else |
| Grouping.FirstOccurrencesIncrease | utils.cpp:152-154 | in a canonical scan the first pixel of label l+1 comes after some pixel of label l |
| Grouping.LabelsContiguous | utils.cpp:152-154 | a canonical scan uses every label from 1 to its maximum |
| Boxes.BoundingBox | utils.cpp:161-183 | an empty contour leaves INT_MAX/INT_MAX/INT_MIN/INT_MIN; otherwise min <= max on both axes and every point is enclosed |
| Boxes.BoundingBoxTight | utils.cpp:169-182 | on a non-empty contour each of the four extremes is attained by some point |
| Boxes.BoundingBoxLeast | utils.cpp:161-183 | any box enclosing every point contains the bounding box |
| Boxes.BoundingBoxOfSameSet | utils.cpp:169-182 | the box depends only on the set of points, not their order or repetitions |
| Driver.KeepLarge | main.cpp:66-72 | keeps exactly the lists with at least 5 coordinates |
| Driver.KeepLargeAppend | main.cpp:66-72 | the filter distributes over concatenation, so kept lists keep their relative order |
| Driver.KeepLargeIdempotent | main.cpp:66-72 | filtering twice equals filtering once |
| Driver.ExtractBoxes | main.cpp:75-80 | one box per list, in order, each enclosing all coordinates of its list |
| Driver.BoxInside | main.cpp:91-98 | the half-open region of the box of a non-empty list of image pixels lies inside the image, and the box's last row and column are inside the image too |
| Driver.Crop | main.cpp:97-98 | the region `gradImg(rct)` is a rectangular raster of height maxRow-minRow and width maxCol-minCol whose cell (r, k) is image cell (minRow+r, minCol+k) |
| Driver.CountPixConcentration | utils.cpp:311-327 | the count equals the number of 255 pixels in the half-open region, and is at most its area |
| Driver.Accepted | main.cpp:99-103 | a box is drawn when its squared diagonal exceeds 25, both sides exceed 3, and at least a fifth of its region is foreground |
| Driver.DiagonalImplied | main.cpp:99-101 | the diagonal test is implied by width > 3 and height > 3, so acceptance reduces to those two and the density test |
| Driver.ConcentrationAsFraction | main.cpp:100-102 | the integer density test 5*count >= area is the fraction count/area being at least 0.2 |
| Driver.Selected | main.cpp:89-104 | a box is selected exactly when it is the box of a list of at least 5 coordinates that passes the acceptance test |
| Driver.SelectBoxes | main.cpp:89-104 | the loop yields exactly the selected boxes, in list order |
| Driver.SelectedAfterFilter | main.cpp:66-80 | filtering out small lists first leaves the selected boxes unchanged |
| Driver.ListsClosed | main.cpp:48-63 | after labelling, each grouped list contains every foreground pixel 8-adjacent to one of its pixels |
| Driver.SeedsInLists | main.cpp:48-63 | each label's seed is in its list, and every pixel of the list is reachable from it |
| Driver.ListsConnected | main.cpp:48-63 | each grouped list has a pixel from which all of its pixels are reachable through foreground |
| Driver.DetectBlobs | main.cpp:45-104 | labelling then grouping gives every foreground pixel a label that has a list; labels appear in first-appearance order, one list per label; the lists are non-empty, each exactly one label's pixels, closed under adjacency and connected; the boxes drawn are exactly those selected from these lists |

## Where the code departs from the obvious reading

The model follows the code in each case below.

- **Concentration threshold.** One would expect a box to need a foreground fraction strictly above 0.20. The code computes `float(count) / area` and compares it with the double literal `0.20`. A quotient of exactly one fifth rounds to the float just above 0.2, so the code accepts it. For areas below 2^24 the code's test is exactly `5 * count >= area`, and that is what `Driver.Accepted` states.
- **Counting region.** One would expect foreground to be counted over the whole bounding box. The code builds `cv::Rect(x, y, endX - x, endY - y)`, which covers rows `minRow..maxRow-1` and columns `minCol..maxCol-1`. The component's last row and last column are therefore not counted (`Driver.RoiInside`, `Driver.Crop`).
- **Undefined Otsu bins.** One would expect a candidate threshold with an empty background to be skipped, or given zero variance. The code divides 0 by 0, producing NaN, which loses every `>` comparison, so the bin is never selected by the comparison. The model represents such a bin as `Variance.Undefined`.
- **Grouping indexes.** The grouping loop compares an `int` label with `labelsCoords.size()`, a `size_t`, so a negative label converts to a huge unsigned value and always allocates a list; the following `labelsCoords[label - 1]` is then out of range. The model returns `None` for any out-of-range index (`Grouping.GroupStep`). Labels from `Borders::CCA` are never negative and appear in first-appearance order, so this path is never taken (`Grouping.Group`).
- **Fixed constants.** The size limit (5 pixels) and the diagonal, side and density limits are hard-coded rather than configurable, and so are they in the model (`Driver.MinComponentSize`, `Driver.Accepted`). The `2.4` divisor is hard-coded too; it belongs to the threshold calibration, which is left out below.

## Left out

- Gaussian blur and kernel construction (utils.cpp:186-249): floating-point `exp` and renormalisation.
- The Sobel operator and `convertScaleAbs` (utils.cpp:251-309): floating-point `sqrt` and scaling. The float to `unsigned char` cast in `convertScaleAbs` is undefined above 255.
- `ComputeMeanIntensity` and the variance formula (utils.cpp:33-45, 58-66): floating-point arithmetic.
  - The per-bin variance is an input to `Binarization.SelectOtsuThreshold`: a real or NaN.
  - Infinite variances are not representable.
  - `meanBackground` at utils.cpp:63 simplifies to `i`.
- `Binarization::OtsuThreshold` (utils.cpp:89-96): it composes the float threshold, the float division by 2.4 and the thresholding. The model takes the threshold as a given real in `Binarization.BinaryThreshold`.
- OpenCV I/O and display: `imread`, `imshow`, `waitKey`, `drawRectangle`, and copying between `cv::Mat` and vectors. These are main.cpp:9-18, 82-87, 103, 106-113 and utils.cpp:330-337. Rectangles that would be drawn are returned as boxes instead.
- The blur, Sobel and scaling calls of main.cpp:20-40: floating-point stages, listed above.
- The label-count output at main.cpp:64 and main.cpp:73: console printing only.
- The call plumbing of main.cpp: its calls pass float and int grids where `uchar` grids are declared. The model connects the stages by their logic only.
- The erase-while-iterating loop at main.cpp:66-72: it is undefined behaviour. Only the filter it intends is modelled (`Driver.KeepLarge`). Its `std::remove` deletes every list equal to a small one. Component lists are disjoint, so this coincides with the filter.
- Machine-integer overflow in histogram bins, running sums, the `unsigned int` counter and the `int currentLabel` of `Borders::CCA` (utils.cpp:143, 153): the model uses mathematical integers.
- Float rounding in the acceptance test for regions of 2^24 pixels or more, where `float(count)` and `float(area)` stop being exact.
- Borders.Bfs: requires a non-zero label. With label 0 the source never terminates once an unlabelled foreground pixel lies in the window of a queued pixel. Any non-zero label, negative ones included, terminates, and the only caller (utils.cpp:155) passes a label of at least 1.
- Borders.Cca: takes no label grid. It starts from the all-zero grid main.cpp:45 passes, so CCA on a grid that already holds labels is not modelled.
- Binarization.BinaryThreshold: requires a rectangular input, as its only caller supplies. A row shorter than the first, or a smaller output, makes the source index out of range.
- Driver.CountPixConcentration: requires the region inside the image, as a `cv::Mat` region must be. It returns the count; the division by the area is folded into `Driver.Accepted`.
- Driver.DetectBlobs: requires image dimensions that fit an `int`, as `cv::Mat` dimensions do, so box coordinates cannot overflow.
- Boxes.BoundingBox: requires coordinates that fit an `int`, the type of the source's coordinate pairs.

=== FILE: binarization.dfy ===
/** The histogram side of Otsu binarisation: the 256-bin histogram, its
    running sum, the argmax over per-bin variances and the final
    thresholding into a 0/255 raster. */
module Binarization {
  import opened Grids

  /** Number of histogram bins: one per 8-bit intensity. */
  const Bins: nat := 256

  /** Every pixel is an 8-bit intensity (`uchar` in the source). */
  predicate IsByteImage(img: Grid) {
    forall i, j :: 0 <= i < |img| && 0 <= j < |img[i]| ==> 0 <= img[i][j] < Bins
  }

  /** Sum of a sequence, folded from the back. */
  function Sum(s: seq<int>): int {
    if |s| == 0 then 0 else Sum(s[..|s| - 1]) + s[|s| - 1]
  }

  /** How many cells of `row` hold `v`. */
  function Occurrences(row: seq<int>, v: int): nat {
    if |row| == 0 then 0
    else Occurrences(row[..|row| - 1], v) + (if row[|row| - 1] == v then 1 else 0)
  }

  /** How many pixels of `img` hold `v`. */
  function GridOccurrences(img: Grid, v: int): nat {
    if |img| == 0 then 0
    else GridOccurrences(img[..|img| - 1], v) + Occurrences(img[|img| - 1], v)
  }

  /** Number of pixels of `img`, row by row. */
  function PixelCount(img: Grid): nat {
    if |img| == 0 then 0 else PixelCount(img[..|img| - 1]) + |img[|img| - 1]|
  }

  lemma {:induction false} SumOfZeros(n: nat)
    ensures Sum(seq(n, _ => 0)) == 0
  {
    if n > 0 {
      assert seq(n, _ => 0)[..n - 1] == seq(n - 1, _ => 0);
      SumOfZeros(n - 1);
    }
  }

  /** Incrementing one entry increments the sum by one. */
  lemma {:induction false} SumIncrement(h: seq<int>, v: int)
    requires 0 <= v < |h|
    ensures Sum(h[v := h[v] + 1]) == Sum(h) + 1
  {
    var h' := h[v := h[v] + 1];
    if v == |h| - 1 {
      assert h'[..|h'| - 1] == h[..|h| - 1];
    } else {
      assert h'[..|h'| - 1] == h[..|h| - 1][v := h[v] + 1];
      SumIncrement(h[..|h| - 1], v);
    }
  }

  /** A rectangular raster has rows x cols pixels. */
  lemma {:induction false} PixelCountOfRect(img: Grid, rows: nat, cols: nat)
    requires IsRect(img, rows, cols)
    ensures PixelCount(img) == rows * cols
  {
    if rows > 0 {
      PixelCountOfRect(img[..rows - 1], rows - 1, cols);
    }
  }

  /** A row holds `v` at most once per cell. */
  lemma {:induction false} OccurrencesAtMostLength(row: seq<int>, v: int)
    ensures Occurrences(row, v) <= |row|
  {
    if |row| > 0 {
      OccurrencesAtMostLength(row[..|row| - 1], v);
    }
  }

  /** A raster holds `v` at most once per pixel. */
  lemma {:induction false} GridOccurrencesAtMostPixels(img: Grid, v: int)
    ensures GridOccurrences(img, v) <= PixelCount(img)
  {
    if |img| > 0 {
      GridOccurrencesAtMostPixels(img[..|img| - 1], v);
      OccurrencesAtMostLength(img[|img| - 1], v);
    }
  }

  /** `Binarization::ComputeHistogram`: bin `v` counts the pixels of
      intensity `v`, and the bins together count every pixel once. */
  method ComputeHistogram(image: Grid) returns (histogram: seq<int>)
    requires IsByteImage(image)
    ensures |histogram| == Bins
    ensures forall v :: 0 <= v < Bins ==> histogram[v] == GridOccurrences(image, v)
    ensures Sum(histogram) == PixelCount(image)
  {
    histogram := seq(Bins, _ => 0);
    SumOfZeros(Bins);
    var r := 0;
    while r < |image|
      invariant 0 <= r <= |image|
      invariant |histogram| == Bins
      invariant forall v :: 0 <= v < Bins ==> histogram[v] == GridOccurrences(image[..r], v)
      invariant Sum(histogram) == PixelCount(image[..r])
    {
      var row := image[r];
      var c := 0;
      while c < |row|
        invariant 0 <= c <= |row|
        invariant |histogram| == Bins
        invariant forall v :: 0 <= v < Bins ==>
          histogram[v] == GridOccurrences(image[..r], v) + Occurrences(row[..c], v)
        invariant Sum(histogram) == PixelCount(image[..r]) + c
      {
        var intensity := row[c];
        assert row[..c + 1][..c] == row[..c];
        SumIncrement(histogram, intensity);
        histogram := histogram[intensity := histogram[intensity] + 1];
        c := c + 1;
      }
      assert row[..|row|] == row;
      assert image[..r + 1][..r] == image[..r];
      r := r + 1;
    }
    assert image[..|image|] == image;
  }

  /** Every bin of a sequence that is non-negative leaves prefix sums
      non-decreasing. */
  lemma {:induction false} PrefixSumMonotone(s: seq<int>, i: nat, j: nat)
    requires i <= j <= |s|
    requires forall k :: 0 <= k < |s| ==> s[k] >= 0
    ensures Sum(s[..i]) <= Sum(s[..j])
  {
    if i < j {
      assert s[..j][..j - 1] == s[..j - 1];
      PrefixSumMonotone(s, i, j - 1);
    }
  }

  /** `Binarization::ComputeCumulativeSum`: entry `i` is the sum of the input
      up to and including `i`; differencing neighbours recovers the input; on
      non-negative input (a histogram) the sums never decrease and end at the
      total. Machine-integer overflow of the running `int` is not modelled. */
  method ComputeCumulativeSum(input: seq<int>) returns (output: seq<int>)
    ensures |output| == |input|
    ensures forall i :: 0 <= i < |input| ==> output[i] == Sum(input[..i + 1])
    ensures |input| > 0 ==> output[0] == input[0]
    ensures forall i :: 0 < i < |input| ==> output[i] - output[i - 1] == input[i]
    ensures |input| > 0 ==> output[|input| - 1] == Sum(input)
    ensures (forall k :: 0 <= k < |input| ==> input[k] >= 0) ==>
              forall i, j :: 0 <= i <= j < |input| ==> output[i] <= output[j]
  {
    output := seq(|input|, _ => 0);
    var sum := 0;
    var i := 0;
    while i < |input|
      invariant 0 <= i <= |input|
      invariant |output| == |input|
      invariant sum == Sum(input[..i])
      invariant forall k :: 0 <= k < i ==> output[k] == Sum(input[..k + 1])
    {
      assert input[..i + 1][..i] == input[..i];
      sum := sum + input[i];
      output := output[i := sum];
      i := i + 1;
    }
    assert input[..|input|] == input;
    forall k | 0 < k < |input|
      ensures output[k] - output[k - 1] == input[k]
    {
      assert input[..k + 1][..k] == input[..k];
    }
    if forall k :: 0 <= k < |input| ==> input[k] >= 0 {
      forall a, b | 0 <= a <= b < |input|
        ensures output[a] <= output[b]
      {
        PrefixSumMonotone(input, a + 1, b + 1);
      }
    }
  }

  /** The between-class variance of one candidate threshold, as the float code
      produces it: a number, or NaN (`Undefined`) when either class of that bin
      is empty (0/0 for an empty background, 0 times an infinite or NaN mean
      for an empty foreground). NaN compares false with everything. */
  datatype Variance = Defined(value: real) | Undefined

  /** `v` beats the running maximum `m` under the source's strict `>`. */
  predicate Exceeds(v: Variance, m: real) {
    v.Defined? && v.value > m
  }

  /** `t` is the first index attaining the largest positive defined variance. */
  predicate FirstMaximum(variance: seq<Variance>, t: int) {
    && 0 <= t < |variance|
    && Exceeds(variance[t], 0.0)
    && (forall k :: 0 <= k < |variance| && variance[k].Defined? ==> variance[k].value <= variance[t].value)
    && (forall k :: 0 <= k < t && variance[k].Defined? ==> variance[k].value < variance[t].value)
  }

  /** At most one index is the first maximum, so the contract of
      `SelectOtsuThreshold` determines its result. */
  lemma FirstMaximumUnique(variance: seq<Variance>, t1: int, t2: int)
    requires FirstMaximum(variance, t1) && FirstMaximum(variance, t2)
    ensures t1 == t2
  {
  }

  /** The argmax loop of `Binarization::ComputeOtsuThreshold`: the running
      maximum starts at 0 and is replaced only by a strictly larger variance,
      so the result is 0 when no bin exceeds 0 and otherwise the smallest index
      of the largest variance. A NaN bin never wins the comparison. */
  method SelectOtsuThreshold(variance: seq<Variance>) returns (threshold: int)
    requires |variance| == Bins
    ensures 0 <= threshold < Bins
    ensures (forall k :: 0 <= k < |variance| ==> !Exceeds(variance[k], 0.0)) ==> threshold == 0
    ensures (exists k :: 0 <= k < |variance| && Exceeds(variance[k], 0.0)) ==> FirstMaximum(variance, threshold)
  {
    var maxVariance: real := 0.0;
    threshold := 0;
    var i := 0;
    while i < |variance|
      invariant 0 <= i <= |variance|
      invariant 0 <= threshold < Bins
      invariant (forall k :: 0 <= k < i ==> !Exceeds(variance[k], 0.0)) ==> threshold == 0 && maxVariance == 0.0
      invariant (exists k :: 0 <= k < i && Exceeds(variance[k], 0.0)) ==>
                  FirstMaximum(variance[..i], threshold) && variance[threshold] == Defined(maxVariance)
    {
      if Exceeds(variance[i], maxVariance) {
        maxVariance := variance[i].value;
        threshold := i;
      }
      i := i + 1;
    }
    assert variance[..|variance|] == variance;
  }

  /** The binary raster the thresholding produces for a rectangular input. */
  function Binarize(img: Grid, threshold: real): (out: Grid)
    ensures SameShape(img, out)
  {
    seq(|img|, i requires 0 <= i < |img| =>
      seq(|img[i]|, j requires 0 <= j < |img[i]| =>
        if img[i][j] as real >= threshold then Foreground else 0))
  }

  /** Thresholding an already binary raster again, with a threshold in
      (0, 255], reproduces it. */
  lemma BinarizeIdempotent(img: Grid, threshold: real)
    requires 0.0 < threshold <= 255.0
    ensures Binarize(Binarize(img, threshold), threshold) == Binarize(img, threshold)
  {
    var once := Binarize(img, threshold);
    var twice := Binarize(once, threshold);
    forall i | 0 <= i < |img|
      ensures twice[i] == once[i]
    {
      forall j | 0 <= j < |img[i]|
        ensures twice[i][j] == once[i][j]
      {
        if img[i][j] as real >= threshold {
          assert once[i][j] == 255;
        } else {
          assert once[i][j] == 0;
        }
      }
    }
  }

  /** Raising the threshold can only turn foreground pixels into background. */
  lemma BinarizeAntitone(img: Grid, low: real, high: real, c: Coord)
    requires low <= high
    requires InGrid(img, c)
    ensures InGrid(Binarize(img, high), c) && InGrid(Binarize(img, low), c)
    ensures At(Binarize(img, high), c) == Foreground ==> At(Binarize(img, low), c) == Foreground
  {
  }

  /** `Binarization::BinaryThreshold`: over the input's rows and its first
      row's width, writes 255 where the input is at least the threshold and
      0 elsewhere; cells of the output outside that range are kept. */
  method BinaryThreshold(inputImage: Grid, outputImage: Grid, threshold: real) returns (result: Grid)
    requires IsRect(inputImage, |inputImage|, Width(inputImage))
    requires |outputImage| >= |inputImage|
    requires forall i :: 0 <= i < |inputImage| ==> |outputImage[i]| >= Width(inputImage)
    ensures SameShape(outputImage, result)
    ensures forall c :: InGrid(inputImage, c) ==> At(result, c) == 0 || At(result, c) == Foreground
    ensures forall c :: InGrid(inputImage, c) ==>
              (At(result, c) == Foreground <==> At(inputImage, c) as real >= threshold)
    ensures forall c :: InGrid(outputImage, c) && !InGrid(inputImage, c) ==> At(result, c) == At(outputImage, c)
    ensures SameShape(inputImage, outputImage) ==> result == Binarize(inputImage, threshold)
  {
    result := outputImage;
    var cols := Width(inputImage);
    var i := 0;
    while i < |inputImage|
      invariant 0 <= i <= |inputImage|
      invariant SameShape(outputImage, result)
      invariant forall c :: InGrid(inputImage, c) && c.row < i ==>
                  At(result, c) == if At(inputImage, c) as real >= threshold then Foreground else 0
      invariant forall c :: InGrid(outputImage, c) && !(InGrid(inputImage, c) && c.row < i) ==>
                  At(result, c) == At(outputImage, c)
    {
      var j := 0;
      while j < cols
        invariant 0 <= j <= cols
        invariant SameShape(outputImage, result)
        invariant forall c :: InGrid(inputImage, c) && (c.row < i || (c.row == i && c.col < j)) ==>
                    At(result, c) == if At(inputImage, c) as real >= threshold then Foreground else 0
        invariant forall c :: InGrid(outputImage, c) && !(InGrid(inputImage, c) && (c.row < i || (c.row == i && c.col < j))) ==>
                    At(result, c) == At(outputImage, c)
      {
        result := Put(result, Coord(i, j), if inputImage[i][j] as real >= threshold then Foreground else 0);
        j := j + 1;
      }
      i := i + 1;
    }
    if SameShape(inputImage, outputImage) {
      var expected := Binarize(inputImage, threshold);
      forall r | 0 <= r < |result|
        ensures result[r] == expected[r]
      {
        forall k | 0 <= k < |result[r]|
          ensures result[r][k] == expected[r][k]
        {
          assert At(result, Coord(r, k)) == result[r][k];
        }
      }
    }
  }
}

=== FILE: borders.dfy ===
/** 8-connected component labelling (`Borders::BFS` and `Borders::CCA`):
    a row-major scan seeds a breadth-first flood fill for every foreground
    pixel that has no label yet. */
module Borders {
  import opened Grids
  import opened Grouping

  /** A pixel inside the raster whose binary value is 255. */
  predicate IsForeground(img: Grid, c: Coord) {
    InGrid(img, c) && At(img, c) == Foreground
  }

  /** `p` moves from `p[0]` by 8-adjacent steps, entering only foreground
      pixels (its first cell may be anything). */
  ghost predicate ForegroundPath(img: Grid, p: seq<Coord>) {
    |p| > 0 && forall k :: 0 < k < |p| ==> IsForeground(img, p[k]) && Adjacent8(p[k - 1], p[k])
  }

  ghost predicate Reachable(img: Grid, from: Coord, to: Coord) {
    exists p :: ForegroundPath(img, p) && p[0] == from && p[|p| - 1] == to
  }

  lemma ExtendPath(img: Grid, p: seq<Coord>, n: Coord)
    requires ForegroundPath(img, p)
    requires IsForeground(img, n) && Adjacent8(p[|p| - 1], n)
    ensures ForegroundPath(img, p + [n])
  {
    var q := p + [n];
    forall k | 0 < k < |q|
      ensures IsForeground(img, q[k]) && Adjacent8(q[k - 1], q[k])
    {
      if k < |p| {
        assert q[k] == p[k] && q[k - 1] == p[k - 1];
      }
    }
  }

  /** Every foreground pixel in the 3x3 window of `c` has a non-zero label. */
  ghost predicate NeighboursLabelled(img: Grid, g: Grid, c: Coord)
    requires SameShape(img, g)
  {
    forall n :: IsForeground(img, n) && Adjacent8(c, n) ==> At(g, n) != 0
  }

  /** `out` differs from `before` only where a foreground pixel with label 0
      received `newLabel`. */
  ghost predicate LabelledOnly(img: Grid, before: Grid, out: Grid, newLabel: int)
    requires SameShape(img, before) && SameShape(img, out)
  {
    forall c :: InGrid(img, c) ==>
      At(out, c) == At(before, c) ||
      (At(before, c) == 0 && At(img, c) == Foreground && At(out, c) == newLabel)
  }

  /** The foreground pixels still carrying label 0. */
  ghost function Unlabelled(img: Grid, g: Grid): set<Coord>
    requires SameShape(img, g)
  {
    set r, k | 0 <= r < |img| && 0 <= k < |img[r]| && img[r][k] == Foreground && g[r][k] == 0 :: Coord(r, k)
  }

  /** Labelling one unlabelled foreground pixel removes exactly it from the
      unlabelled set. */
  lemma UnlabelledAfterPut(img: Grid, g: Grid, n: Coord, v: int)
    requires SameShape(img, g) && IsForeground(img, n) && At(g, n) == 0 && v != 0
    ensures Unlabelled(img, Put(g, n, v)) == Unlabelled(img, g) - {n}
  {
    var g' := Put(g, n, v);
    assert n == Coord(n.row, n.col);
    forall c | c in Unlabelled(img, g')
      ensures c in Unlabelled(img, g) - {n}
    {
      assert At(g', c) == 0;
    }
    forall c | c in Unlabelled(img, g) - {n}
      ensures c in Unlabelled(img, g')
    {
      assert At(g', c) == At(g, c);
    }
  }

  /** Every recorded path leads from `seed` to its key through foreground. */
  ghost predicate PathsFrom(img: Grid, seed: Coord, paths: map<Coord, seq<Coord>>) {
    forall c :: c in paths ==>
      ForegroundPath(img, paths[c]) && paths[c][0] == seed && paths[c][|paths[c]| - 1] == c
  }

  /** Every pixel of `added` is a foreground pixel that was unlabelled in
      `labels` and carries `newLabel` in `out`, and none occurs twice: the
      pixels a window visit queues are the ones it relabelled, each once. */
  ghost predicate FreshlyLabelled(img: Grid, labels: Grid, out: Grid, newLabel: int, added: seq<Coord>)
    requires SameShape(img, labels) && SameShape(img, out)
  {
    && (forall k :: 0 <= k < |added| ==>
          IsForeground(img, added[k]) && At(labels, added[k]) == 0 && At(out, added[k]) == newLabel)
    && (forall k, k' :: 0 <= k < k' < |added| ==> added[k] != added[k'])
  }

  /** Labelling and appending a pixel that is still 0 in `out` keeps
      `FreshlyLabelled`: it cannot already be in `added`, whose pixels all
      carry the non-zero label. */
  lemma FreshAfterPut(img: Grid, labels: Grid, out: Grid, newLabel: int, added: seq<Coord>, n: Coord)
    requires SameShape(img, labels) && SameShape(img, out) && newLabel != 0
    requires FreshlyLabelled(img, labels, out, newLabel, added)
    requires LabelledOnly(img, labels, out, newLabel)
    requires IsForeground(img, n) && At(out, n) == 0
    ensures FreshlyLabelled(img, labels, Put(out, n, newLabel), newLabel, added + [n])
  {
    var out' := Put(out, n, newLabel);
    var added' := added + [n];
    forall k | 0 <= k < |added|
      ensures added[k] != n
    {
      assert At(out, added[k]) == newLabel;
    }
    assert At(labels, n) == 0;
    forall k | 0 <= k < |added'|
      ensures IsForeground(img, added'[k]) && At(labels, added'[k]) == 0 && At(out', added'[k]) == newLabel
    {
      if k < |added| {
        assert added'[k] == added[k];
      }
    }
  }

  /** What the window scan keeps between two visited offsets: `out` only
      relabelled unlabelled foreground pixels, each of them was queued (after
      the old queue, in `added`) with a recorded path from the seed, `added`
      holds only such pixels, each once, and the unlabelled set shrank as
      soon as anything was queued. */
  ghost predicate WindowInv(img: Grid, labels: Grid, newLabel: int, seed: Coord,
                            paths: map<Coord, seq<Coord>>, queue: seq<Coord>,
                            out: Grid, grown: seq<Coord>, added: seq<Coord>, paths': map<Coord, seq<Coord>>)
    requires SameShape(img, labels)
  {
    && SameShape(img, out)
    && LabelledOnly(img, labels, out, newLabel)
    && PathsFrom(img, seed, paths') && paths.Keys <= paths'.Keys
    && grown == queue + added
    && (forall k :: 0 <= k < |added| ==> added[k] in paths')
    && (forall c :: InGrid(img, c) && At(out, c) != At(labels, c) ==> c in paths' && c in added)
    && FreshlyLabelled(img, labels, out, newLabel, added)
    && Unlabelled(img, out) <= Unlabelled(img, labels)
    && (|added| > 0 ==> Unlabelled(img, out) < Unlabelled(img, labels))
  }

  /** Recording the path to `cur` extended by an adjacent foreground pixel
      `n` keeps every recorded path a foreground path from the seed. */
  lemma PathsAfterAdd(img: Grid, seed: Coord, paths: map<Coord, seq<Coord>>, cur: Coord, n: Coord)
    requires PathsFrom(img, seed, paths) && cur in paths
    requires IsForeground(img, n) && Adjacent8(cur, n)
    ensures PathsFrom(img, seed, paths[n := paths[cur] + [n]])
  {
    ExtendPath(img, paths[cur], n);
  }

  /** Giving the unlabelled foreground pixel `n` the label keeps `out`
      a relabelling of unlabelled foreground only, with `n` now among the
      changed pixels, and clears no label. */
  lemma LabelsAfterPut(img: Grid, labels: Grid, out: Grid, newLabel: int, added: seq<Coord>, n: Coord)
    requires SameShape(img, labels) && SameShape(img, out) && newLabel != 0
    requires LabelledOnly(img, labels, out, newLabel)
    requires forall c :: InGrid(img, c) && At(out, c) != At(labels, c) ==> c in added
    requires IsForeground(img, n) && At(out, n) == 0
    ensures LabelledOnly(img, labels, Put(out, n, newLabel), newLabel)
    ensures forall c :: InGrid(img, c) && At(Put(out, n, newLabel), c) != At(labels, c) ==> c in added + [n]
    ensures forall c :: InGrid(img, c) && At(out, c) != 0 ==> At(Put(out, n, newLabel), c) != 0
  {
    var out' := Put(out, n, newLabel);
    assert At(labels, n) == 0;
    forall c | InGrid(img, c) && At(out', c) != At(labels, c)
      ensures c in added + [n]
    {
      if c != n {
        assert At(out, c) != At(labels, c);
      }
    }
  }

  /** Labelling and queueing one unlabelled foreground neighbour of `cur`
      keeps the window invariant and never clears a label. */
  lemma WindowStep(img: Grid, labels: Grid, newLabel: int, seed: Coord,
                   paths: map<Coord, seq<Coord>>, queue: seq<Coord>,
                   out: Grid, grown: seq<Coord>, added: seq<Coord>, paths': map<Coord, seq<Coord>>,
                   cur: Coord, n: Coord)
    requires SameShape(img, labels) && newLabel != 0
    requires WindowInv(img, labels, newLabel, seed, paths, queue, out, grown, added, paths')
    requires cur in paths'
    requires IsForeground(img, n) && At(out, n) == 0 && Adjacent8(cur, n)
    ensures WindowInv(img, labels, newLabel, seed, paths, queue, Put(out, n, newLabel),
                      grown + [n], added + [n], paths'[n := paths'[cur] + [n]])
    ensures forall c :: InGrid(img, c) && At(out, c) != 0 ==> At(Put(out, n, newLabel), c) != 0
  {
    UnlabelledAfterPut(img, out, n, newLabel);
    PathsAfterAdd(img, seed, paths', cur, n);
    LabelsAfterPut(img, labels, out, newLabel, added, n);
    FreshAfterPut(img, labels, out, newLabel, added, n);
    var paths'' := paths'[n := paths'[cur] + [n]];
    assert forall k :: 0 <= k < |added| ==> added[k] in paths'';
    assert grown + [n] == queue + (added + [n]);
  }

  /** The queue after a window visit is the old queue followed by `added`,
      so its new tail holds exactly what `added` holds. */
  lemma WindowTail(img: Grid, labels: Grid, out: Grid, newLabel: int,
                   queue: seq<Coord>, grown: seq<Coord>, added: seq<Coord>)
    requires SameShape(img, labels) && SameShape(img, out)
    requires grown == queue + added
    requires FreshlyLabelled(img, labels, out, newLabel, added)
    ensures grown[..|queue|] == queue && grown[|queue|..] == added
    ensures forall k :: |queue| <= k < |grown| ==>
              IsForeground(img, grown[k]) && At(labels, grown[k]) == 0 && At(out, grown[k]) == newLabel
    ensures forall k, k' :: |queue| <= k < k' < |grown| ==> grown[k] != grown[k']
  {
    assert forall k :: |queue| <= k < |grown| ==> grown[k] == added[k - |queue|];
  }

  /** Every foreground pixel of the window of `cur` that the offset loops
      have passed before offset `(i, j)` is labelled. */
  ghost predicate WindowLabelledUpTo(img: Grid, g: Grid, cur: Coord, i: int, j: int)
    requires SameShape(img, g)
  {
    forall n :: (IsForeground(img, n) && Adjacent8(cur, n) &&
                 (n.row < cur.row + i || (n.row == cur.row + i && n.col < cur.col + j))) ==>
      At(g, n) != 0
  }

  lemma WindowProgress(img: Grid, g: Grid, g': Grid, cur: Coord, i: int, j: int)
    requires SameShape(img, g) && SameShape(img, g')
    requires WindowLabelledUpTo(img, g, cur, i, j)
    requires forall c :: InGrid(img, c) && At(g, c) != 0 ==> At(g', c) != 0
    requires IsForeground(img, Coord(cur.row + i, cur.col + j)) ==> At(g', Coord(cur.row + i, cur.col + j)) != 0
    ensures WindowLabelledUpTo(img, g', cur, i, j + 1)
  {
  }

  lemma WindowRowDone(img: Grid, g: Grid, cur: Coord, i: int)
    requires SameShape(img, g)
    requires WindowLabelledUpTo(img, g, cur, i, 2)
    ensures WindowLabelledUpTo(img, g, cur, i + 1, -1)
  {
  }

  lemma WindowDone(img: Grid, g: Grid, cur: Coord)
    requires SameShape(img, g)
    requires WindowLabelledUpTo(img, g, cur, 2, -1)
    ensures NeighboursLabelled(img, g, cur)
  {
  }

  /** The body of the queue loop of `Borders::BFS` (utils.cpp:120-133): the
      nested offset loops visit the 3x3 window of `cur`, and every pixel in it
      that is inside the raster, foreground and still 0 gets `newLabel` and
      joins the back of the queue. Afterwards no foreground pixel of the window
      is unlabelled; the pixels it relabelled are exactly the ones it queued;
      and the unlabelled set shrank if the queue grew. */
  method VisitWindow(cur: Coord, newLabel: int, binaryImg: Grid, labels: Grid, queue: seq<Coord>,
                     ghost seed: Coord, ghost paths: map<Coord, seq<Coord>>)
    returns (out: Grid, grown: seq<Coord>, ghost paths': map<Coord, seq<Coord>>)
    requires IsRaster(binaryImg) && SameShape(binaryImg, labels) && newLabel != 0
    requires PathsFrom(binaryImg, seed, paths) && cur in paths
    ensures SameShape(binaryImg, out)
    ensures LabelledOnly(binaryImg, labels, out, newLabel)
    ensures NeighboursLabelled(binaryImg, out, cur)
    ensures PathsFrom(binaryImg, seed, paths') && paths.Keys <= paths'.Keys
    ensures |grown| >= |queue| && grown[..|queue|] == queue
    ensures forall k :: |queue| <= k < |grown| ==> grown[k] in paths'
    ensures forall c :: InGrid(binaryImg, c) && At(out, c) != At(labels, c) ==> c in paths' && c in grown[|queue|..]
    ensures forall k :: |queue| <= k < |grown| ==>
              IsForeground(binaryImg, grown[k]) && At(labels, grown[k]) == 0 && At(out, grown[k]) == newLabel
    ensures forall k, k' :: |queue| <= k < k' < |grown| ==> grown[k] != grown[k']
    ensures Unlabelled(binaryImg, out) <= Unlabelled(binaryImg, labels)
    ensures |grown| > |queue| ==> Unlabelled(binaryImg, out) < Unlabelled(binaryImg, labels)
  {
    var rows := |binaryImg|;
    var cols := |binaryImg[0]|;
    out, grown, paths' := labels, queue, paths;
    ghost var added: seq<Coord> := [];
    var i := -1;
    while i <= 1
      invariant -1 <= i <= 2
      invariant WindowInv(binaryImg, labels, newLabel, seed, paths, queue, out, grown, added, paths')
      invariant WindowLabelledUpTo(binaryImg, out, cur, i, -1)
    {
      var j := -1;
      while j <= 1
        invariant -1 <= j <= 2
        invariant WindowInv(binaryImg, labels, newLabel, seed, paths, queue, out, grown, added, paths')
        invariant WindowLabelledUpTo(binaryImg, out, cur, i, j)
      {
        var n := Coord(cur.row + i, cur.col + j);
        ghost var prior := out;
        if CheckBoundary(n.row, n.col, rows, cols) && binaryImg[n.row][n.col] == Foreground && out[n.row][n.col] == 0 {
          WindowStep(binaryImg, labels, newLabel, seed, paths, queue, out, grown, added, paths', cur, n);
          out := Put(out, n, newLabel);
          grown := grown + [n];
          added := added + [n];
          paths' := paths'[n := paths'[cur] + [n]];
        }
        WindowProgress(binaryImg, prior, out, cur, i, j);
        j := j + 1;
      }
      WindowRowDone(binaryImg, out, cur, i);
      i := i + 1;
    }
    WindowDone(binaryImg, out, cur);
    WindowTail(binaryImg, labels, out, newLabel, queue, grown, added);
  }

  /** What the queue loop of `Borders::BFS` keeps: `out` only relabelled
      unlabelled foreground pixels, each with a recorded path from the seed
      and each either processed (`done`, whose windows hold no unlabelled
      foreground) or still queued; the seed is one of them. */
  ghost predicate BfsInv(img: Grid, labels: Grid, newLabel: int, seed: Coord, out: Grid,
                         paths: map<Coord, seq<Coord>>, done: set<Coord>, queue: seq<Coord>)
  {
    && SameShape(img, labels) && SameShape(img, out)
    && LabelledOnly(img, labels, out, newLabel)
    && PathsFrom(img, seed, paths)
    && (forall i :: 0 <= i < |queue| ==> queue[i] in paths)
    && (forall c :: c in done ==> NeighboursLabelled(img, out, c))
    && (seed in done || seed in queue)
    && (forall c :: InGrid(img, c) && At(out, c) != At(labels, c) ==> c in paths && (c in done || c in queue))
  }

  /** Visiting the window of the queue's head keeps `BfsInv`, with the head
      moved to `done` and the queue replaced by the grown tail. */
  lemma BfsStep(img: Grid, labels: Grid, newLabel: int, seed: Coord, before: Grid,
                paths: map<Coord, seq<Coord>>, done: set<Coord>, queue: seq<Coord>,
                out: Grid, grown: seq<Coord>, paths': map<Coord, seq<Coord>>)
    requires BfsInv(img, labels, newLabel, seed, before, paths, done, queue) && |queue| > 0
    requires newLabel != 0 && SameShape(img, out)
    requires LabelledOnly(img, before, out, newLabel)
    requires NeighboursLabelled(img, out, queue[0])
    requires PathsFrom(img, seed, paths') && paths.Keys <= paths'.Keys
    requires |grown| >= |queue| - 1 && grown[..|queue| - 1] == queue[1..]
    requires forall k :: |queue| - 1 <= k < |grown| ==> grown[k] in paths'
    requires forall c :: InGrid(img, c) && At(out, c) != At(before, c) ==> c in paths' && c in grown[|queue| - 1..]
    ensures BfsInv(img, labels, newLabel, seed, out, paths', done + {queue[0]}, grown)
  {
    var rest := queue[1..];
    assert forall k :: 0 <= k < |rest| ==> grown[k] == rest[k];
    forall c | InGrid(img, c)
      ensures At(out, c) == At(labels, c) ||
              (At(labels, c) == 0 && At(img, c) == Foreground && At(out, c) == newLabel)
    {
    }
    forall c | c in done
      ensures NeighboursLabelled(img, out, c)
    {
      forall n | IsForeground(img, n) && Adjacent8(c, n)
        ensures At(out, n) != 0
      {
        assert At(before, n) != 0;
      }
    }
    forall c | InGrid(img, c) && At(out, c) != At(labels, c)
      ensures c in paths' && (c in done + {queue[0]} || c in grown)
    {
      if At(out, c) != At(before, c) {
        assert c in grown[|rest|..];
      } else if c != queue[0] && c !in done {
        var i :| 0 <= i < |queue| && queue[i] == c;
        assert rest[i - 1] == c;
      }
    }
    assert seed == queue[0] || seed in done || seed in rest;
  }

  /** `Borders::BFS`: flood-fills `newLabel` from `(x, y)`. Only pixels that
      were 0 and foreground change, each to `newLabel`, and each is reachable
      from the seed through 8-adjacent foreground pixels. Afterwards the seed
      and every relabelled pixel have no unlabelled foreground neighbour.
      Termination: a pixel is labelled before it is queued, so the set of
      unlabelled foreground pixels shrinks whenever the queue grows. With
      `newLabel == 0` the source never terminates once an unlabelled
      foreground pixel lies in the window of a queued pixel (writing 0 leaves
      it unlabelled, so it is queued again and again), hence the
      precondition; any non-zero label, negative ones included, terminates.
      The only caller, `Borders::CCA`, passes a label of at least 1. */
  method Bfs(x: int, y: int, newLabel: int, binaryImg: Grid, labels: Grid) returns (out: Grid)
    requires IsRaster(binaryImg) && SameShape(binaryImg, labels)
    requires newLabel != 0
    ensures SameShape(binaryImg, out)
    ensures LabelledOnly(binaryImg, labels, out, newLabel)
    ensures NeighboursLabelled(binaryImg, out, Coord(x, y))
    ensures forall c :: InGrid(binaryImg, c) && At(out, c) != At(labels, c) ==>
              NeighboursLabelled(binaryImg, out, c) && Reachable(binaryImg, Coord(x, y), c)
  {
    var seed := Coord(x, y);
    var queue := [seed];
    out := labels;
    ghost var paths := map[seed := [seed]];
    ghost var done: set<Coord> := {};
    while |queue| > 0
      invariant BfsInv(binaryImg, labels, newLabel, seed, out, paths, done, queue)
      decreases Unlabelled(binaryImg, out), |queue|
    {
      var cur := queue[0];
      ghost var before := out;
      ghost var paths0 := paths;
      ghost var queue0 := queue;
      out, queue, paths := VisitWindow(cur, newLabel, binaryImg, out, queue[1..], seed, paths);
      BfsStep(binaryImg, labels, newLabel, seed, before, paths0, done, queue0, out, queue, paths);
      done := done + {cur};
    }
    BfsReach(binaryImg, labels, seed, out, paths);
  }

  /** Every pixel with a recorded path is reachable from the seed. */
  lemma BfsReach(img: Grid, labels: Grid, seed: Coord, out: Grid, paths: map<Coord, seq<Coord>>)
    requires SameShape(img, labels) && SameShape(img, out)
    requires PathsFrom(img, seed, paths)
    requires forall c :: InGrid(img, c) && At(out, c) != At(labels, c) ==> c in paths
    ensures forall c :: InGrid(img, c) && At(out, c) != At(labels, c) ==> Reachable(img, seed, c)
  {
    forall c | InGrid(img, c) && At(out, c) != At(labels, c)
      ensures Reachable(img, seed, c)
    {
      assert ForegroundPath(img, paths[c]);
    }
  }

  /** Two 8-adjacent pixels, one labelled and the other foreground, carry
      the same label. */
  ghost predicate Closed(img: Grid, g: Grid)
    requires SameShape(img, g)
  {
    forall c, d :: InGrid(img, c) && IsForeground(img, d) && Adjacent8(c, d) && At(g, c) != 0 ==>
      At(g, d) == At(g, c)
  }

  /** Seeding `p` with a fresh label and flood-filling from it keeps labels
      closed under adjacency. */
  lemma {:induction false} ClosedAfterFill(img: Grid, prev: Grid, seeded: Grid, out: Grid, p: Coord, newLabel: int)
    requires SameShape(img, prev) && SameShape(img, out)
    requires Closed(img, prev)
    requires IsForeground(img, p) && At(prev, p) == 0 && newLabel > 0
    requires seeded == Put(prev, p, newLabel)
    requires LabelledOnly(img, seeded, out, newLabel)
    requires NeighboursLabelled(img, out, p)
    requires forall c :: InGrid(img, c) && At(out, c) != At(seeded, c) ==> NeighboursLabelled(img, out, c)
    ensures Closed(img, out)
  {
    forall c, d | InGrid(img, c) && IsForeground(img, d) && Adjacent8(c, d) && At(out, c) != 0
      ensures At(out, d) == At(out, c)
    {
      assert Adjacent8(d, c);
      if c == p || At(out, c) != At(seeded, c) {
        assert At(out, c) == newLabel;
        assert At(out, d) != 0;
        if d != p && At(out, d) == At(seeded, d) {
          assert false;
        }
      } else {
        assert At(prev, c) == At(out, c);
        assert At(prev, d) == At(prev, c);
      }
    }
  }

  /** `a` comes strictly before `b` in the row-major scan. */
  predicate Before(a: Coord, b: Coord) {
    a.row < b.row || (a.row == b.row && a.col < b.col)
  }

  /** What holds of the label grid between two steps of the scan, with
      `seeds[k]` the pixel that started label `k + 1`. */
  ghost predicate Labelling(img: Grid, g: Grid, count: int, seeds: seq<Coord>)
    requires SameShape(img, g)
  {
    && (forall c :: InGrid(img, c) && At(g, c) != 0 ==> At(img, c) == Foreground)
    && (forall c :: InGrid(img, c) ==> 0 <= At(g, c) <= count)
    && Closed(img, g)
    && |seeds| == count
    && (forall k :: 0 <= k < count ==> InGrid(img, seeds[k]) && At(g, seeds[k]) == k + 1)
    && (forall k, c :: 0 <= k < count && InGrid(img, c) && Before(c, seeds[k]) ==> At(g, c) != k + 1)
    && (forall c :: InGrid(img, c) && At(g, c) != 0 ==> Reachable(img, seeds[At(g, c) - 1], c))
  }

  /** The hypotheses shared by the lemmas about one new component: `seeded`
      gives the unlabelled foreground pixel `p` label `count + 1`, and the
      flood fill from `p` turns it into `out`. */
  ghost predicate FilledFrom(img: Grid, prev: Grid, seeded: Grid, out: Grid, p: Coord, count: int)
    requires SameShape(img, prev) && SameShape(img, out)
  {
    && IsForeground(img, p) && At(prev, p) == 0 && count >= 0
    && seeded == Put(prev, p, count + 1)
    && LabelledOnly(img, seeded, out, count + 1)
  }

  /** Pixels labelled before the fill keep their labels, every label stays
      on foreground and within 0..count + 1. */
  lemma {:induction false} RangeAfterFill(img: Grid, prev: Grid, seeded: Grid, out: Grid, p: Coord, count: int)
    requires SameShape(img, prev) && SameShape(img, out)
    requires FilledFrom(img, prev, seeded, out, p, count)
    requires forall c :: InGrid(img, c) && At(prev, c) != 0 ==> At(img, c) == Foreground
    requires forall c :: InGrid(img, c) ==> 0 <= At(prev, c) <= count
    ensures forall c :: InGrid(img, c) && At(prev, c) != 0 ==> At(out, c) == At(prev, c)
    ensures At(out, p) == count + 1
    ensures forall c :: InGrid(img, c) && At(out, c) != At(prev, c) ==> At(out, c) == count + 1
    ensures forall c :: InGrid(img, c) && At(out, c) != 0 ==> At(img, c) == Foreground
    ensures forall c :: InGrid(img, c) ==> 0 <= At(out, c) <= count + 1
  {
    forall c | InGrid(img, c) && At(prev, c) != 0
      ensures At(out, c) == At(prev, c)
    {
      assert c != p;
      assert At(seeded, c) == At(prev, c);
    }
    forall c | InGrid(img, c) && At(out, c) != At(prev, c)
      ensures At(out, c) == count + 1
    {
      if c != p {
        assert At(seeded, c) == At(prev, c);
      }
    }
  }

  /** The seed of every label is still labelled with it and still its first
      pixel in scan order; `p` is that of the new label. */
  lemma {:induction false} SeedsAfterFill(img: Grid, prev: Grid, out: Grid, p: Coord, count: int, seeds: seq<Coord>)
    requires SameShape(img, prev) && SameShape(img, out)
    requires IsForeground(img, p) && count >= 0 && |seeds| == count
    requires forall c :: InGrid(img, c) && At(prev, c) != 0 ==> At(out, c) == At(prev, c)
    requires At(out, p) == count + 1
    requires forall c :: InGrid(img, c) && At(out, c) != At(prev, c) ==> At(out, c) == count + 1
    requires forall c :: InGrid(img, c) && At(out, c) != 0 ==> At(img, c) == Foreground
    requires forall c :: IsForeground(img, c) && Before(c, p) ==> At(prev, c) != 0
    requires forall c :: InGrid(img, c) ==> 0 <= At(prev, c) <= count
    requires forall k :: 0 <= k < count ==> InGrid(img, seeds[k]) && At(prev, seeds[k]) == k + 1
    requires forall k, c :: 0 <= k < count && InGrid(img, c) && Before(c, seeds[k]) ==> At(prev, c) != k + 1
    ensures forall k :: 0 <= k < count + 1 ==> InGrid(img, (seeds + [p])[k]) && At(out, (seeds + [p])[k]) == k + 1
    ensures forall k, c :: 0 <= k < count + 1 && InGrid(img, c) && Before(c, (seeds + [p])[k]) ==>
              At(out, c) != k + 1
  {
    var s := seeds + [p];
    forall k, c | 0 <= k < count + 1 && InGrid(img, c) && Before(c, s[k])
      ensures At(out, c) != k + 1
    {
      if k == count {
        if At(img, c) == Foreground {
          assert At(out, c) == At(prev, c);
        }
      } else if At(out, c) != At(prev, c) {
        assert At(out, c) == count + 1;
      }
    }
  }

  /** Every labelled pixel is still reachable from its label's seed. */
  lemma {:induction false} ReachAfterFill(img: Grid, prev: Grid, seeded: Grid, out: Grid, p: Coord, count: int, seeds: seq<Coord>)
    requires SameShape(img, prev) && SameShape(img, out)
    requires FilledFrom(img, prev, seeded, out, p, count) && |seeds| == count
    requires forall c :: InGrid(img, c) && At(prev, c) != 0 ==> At(out, c) == At(prev, c)
    requires forall c :: InGrid(img, c) && At(out, c) != At(prev, c) ==> At(out, c) == count + 1
    requires forall c :: InGrid(img, c) ==> 0 <= At(prev, c) <= count
    requires forall c :: InGrid(img, c) && At(prev, c) != 0 ==> Reachable(img, seeds[At(prev, c) - 1], c)
    requires forall c :: InGrid(img, c) && At(out, c) != At(seeded, c) ==> Reachable(img, p, c)
    ensures forall c :: InGrid(img, c) && At(out, c) != 0 ==> Reachable(img, (seeds + [p])[At(out, c) - 1], c)
  {
    var s := seeds + [p];
    assert ForegroundPath(img, [p]);
    forall c | InGrid(img, c) && At(out, c) != 0
      ensures Reachable(img, s[At(out, c) - 1], c)
    {
      if At(prev, c) != 0 {
        assert s[At(out, c) - 1] == seeds[At(prev, c) - 1];
      } else if c != p {
        assert At(seeded, c) == 0;
        assert s[At(out, c) - 1] == p;
      } else {
        assert s[At(out, c) - 1] == p;
      }
    }
  }

  /** One new component keeps the labelling invariant, with `p` as the seed of
      label `count + 1`, and changes no pixel the scan has passed. */
  lemma LabellingAfterFill(img: Grid, prev: Grid, seeded: Grid, out: Grid, p: Coord, count: int, seeds: seq<Coord>)
    requires SameShape(img, prev) && SameShape(img, out)
    requires Labelling(img, prev, count, seeds)
    requires FilledFrom(img, prev, seeded, out, p, count)
    requires forall c :: IsForeground(img, c) && Before(c, p) ==> At(prev, c) != 0
    requires NeighboursLabelled(img, out, p)
    requires forall c :: InGrid(img, c) && At(out, c) != At(seeded, c) ==>
               NeighboursLabelled(img, out, c) && Reachable(img, p, c)
    ensures Labelling(img, out, count + 1, seeds + [p])
    ensures forall c :: InGrid(img, c) && Before(c, p) ==> At(out, c) == At(prev, c)
    ensures forall c :: InGrid(img, c) && At(prev, c) != 0 ==> At(out, c) != 0
    ensures At(out, p) == count + 1
  {
    RangeAfterFill(img, prev, seeded, out, p, count);
    SeedsAfterFill(img, prev, out, p, count, seeds);
    ReachAfterFill(img, prev, seeded, out, p, count, seeds);
    ClosedAfterFill(img, prev, seeded, out, p, count + 1);
    forall c | InGrid(img, c) && Before(c, p)
      ensures At(out, c) == At(prev, c)
    {
      if At(img, c) == Foreground {
        assert At(prev, c) != 0;
      }
    }
  }

  /** Grids equal on every pixel the scan has passed have equal scan prefixes. */
  lemma ScanBeforeAgrees(a: Grid, b: Grid, i: int, j: int)
    requires SameShape(a, b) && 0 <= i < |a| && 0 <= j <= |a[i]|
    requires forall c :: InGrid(a, c) && (c.row < i || (c.row == i && c.col < j)) ==> At(a, c) == At(b, c)
    ensures ScanBefore(a, i, j) == ScanBefore(b, i, j)
  {
    forall r | 0 <= r < i
      ensures a[r] == b[r]
    {
      forall k | 0 <= k < |a[r]|
        ensures a[r][k] == b[r][k]
      {
        assert At(a, Coord(r, k)) == At(b, Coord(r, k));
      }
    }
    assert a[..i] == b[..i];
    forall k | 0 <= k < j
      ensures a[i][k] == b[i][k]
    {
      assert At(a, Coord(i, k)) == At(b, Coord(i, k));
    }
    assert a[i][..j] == b[i][..j];
  }

  /** Appending a label to a canonical scan whose maximum is `m`. */
  lemma CanonicalAppend(s: seq<Entry>, e: Entry, m: int)
    requires Canonical(s) && MaxLabel(s) == m
    requires 0 <= e.id <= m + 1
    ensures Canonical(s + [e])
    ensures MaxLabel(s + [e]) == if e.id > m then e.id else m
  {
    assert (s + [e])[..|s|] == s;
  }

  /** One pixel of the scan: if the pixels before `(i, j)` are unchanged and
      the pixel itself gets a label at most one above the running maximum
      (raising the count exactly when it does), the scan prefix stays
      canonical with maximum `count'`. */
  lemma ScanAfterPixel(before: Grid, after: Grid, i: int, j: int, count: int, count': int)
    requires SameShape(before, after) && 0 <= i < |before| && 0 <= j < |before[i]|
    requires forall c :: InGrid(before, c) && Before(c, Coord(i, j)) ==> At(after, c) == At(before, c)
    requires Canonical(ScanBefore(before, i, j)) && MaxLabel(ScanBefore(before, i, j)) == count
    requires count <= count' <= count + 1
    requires 0 <= after[i][j] <= count'
    requires count' > count ==> after[i][j] == count'
    ensures Canonical(ScanBefore(after, i, j + 1)) && MaxLabel(ScanBefore(after, i, j + 1)) == count'
  {
    ScanBeforeAgrees(before, after, i, j);
    ScanBeforeStep(after, i, j);
    CanonicalAppend(ScanBefore(after, i, j), Entry(Coord(i, j), after[i][j]), count);
  }

  /** Once the scan has passed pixel `p`, every foreground pixel up to and
      including `p` carries a label, provided labels are never cleared and
      `p` itself is labelled when it is foreground. */
  lemma ScannedAfterPixel(img: Grid, prev: Grid, g: Grid, p: Coord)
    requires SameShape(img, prev) && SameShape(img, g) && InGrid(img, p)
    requires forall c :: IsForeground(img, c) && Before(c, p) ==> At(prev, c) != 0
    requires forall c :: InGrid(img, c) && At(prev, c) != 0 ==> At(g, c) != 0
    requires IsForeground(img, p) ==> At(g, p) != 0
    ensures forall c :: IsForeground(img, c) && Before(c, Coord(p.row, p.col + 1)) ==> At(g, c) != 0
  {
    forall c | IsForeground(img, c) && Before(c, Coord(p.row, p.col + 1))
      ensures At(g, c) != 0
    {
      if c != p {
        assert Before(c, p);
      }
    }
  }

  /** The scan invariant with every pixel passed gives the contract of `Cca`. */
  lemma LabellingComplete(img: Grid, g: Grid)
    requires SameShape(img, g)
    requires forall c :: InGrid(img, c) && At(g, c) != 0 ==> At(img, c) == Foreground
    requires Closed(img, g)
    requires forall c :: IsForeground(img, c) ==> At(g, c) != 0
    ensures forall c :: InGrid(img, c) ==> (At(g, c) == 0 <==> At(img, c) != Foreground)
    ensures forall c, d :: IsForeground(img, c) && IsForeground(img, d) && Adjacent8(c, d) ==>
              At(g, c) == At(g, d)
  {
    forall c, d | IsForeground(img, c) && IsForeground(img, d) && Adjacent8(c, d)
      ensures At(g, c) == At(g, d)
    {
      assert At(g, c) != 0;
      assert InGrid(img, c);
    }
  }

  /** The state of the CCA scan when it reaches pixel `(i, j)`: the labels
      so far form a labelling with `count` components, every foreground pixel
      already passed is labelled, and the labels met so far first appear in
      increasing order. */
  ghost predicate ScanState(img: Grid, g: Grid, count: int, seeds: seq<Coord>, i: int, j: int)
  {
    && IsRaster(img) && SameShape(img, g)
    && 0 <= i < |img| && 0 <= j <= |img[i]|
    && Labelling(img, g, count, seeds)
    && (forall c :: IsForeground(img, c) && Before(c, Coord(i, j)) ==> At(g, c) != 0)
    && Canonical(ScanBefore(g, i, j)) && MaxLabel(ScanBefore(g, i, j)) == count
  }

  /** One iteration of the inner loop of `Borders::CCA` (utils.cpp:150-157):
      an unlabelled foreground pixel opens component `currentLabel + 1` and
      is flood-filled from; any other pixel is left alone. */
  method LabelPixel(binaryImg: Grid, labels: Grid, currentLabel: int, ghost seeds: seq<Coord>, i: int, j: int)
    returns (labels': Grid, currentLabel': int, ghost seeds': seq<Coord>)
    requires ScanState(binaryImg, labels, currentLabel, seeds, i, j) && j < |binaryImg[i]|
    ensures ScanState(binaryImg, labels', currentLabel', seeds', i, j + 1)
    ensures currentLabel' == if binaryImg[i][j] == Foreground && labels[i][j] == 0
                             then currentLabel + 1 else currentLabel
    ensures forall c :: InGrid(binaryImg, c) && At(labels, c) != 0 ==> At(labels', c) == At(labels, c)
  {
    var p := Coord(i, j);
    labels', currentLabel', seeds' := labels, currentLabel, seeds;
    if binaryImg[i][j] == Foreground && labels[i][j] == 0 {
      currentLabel' := currentLabel + 1;
      var seeded := Put(labels, p, currentLabel');
      labels' := Bfs(i, j, currentLabel', binaryImg, seeded);
      LabellingAfterFill(binaryImg, labels, seeded, labels', p, currentLabel, seeds);
      seeds' := seeds + [p];
    } else {
      assert At(labels, p) <= currentLabel;
    }
    ScanAfterPixel(labels, labels', i, j, currentLabel, currentLabel');
    ScannedAfterPixel(binaryImg, labels, labels', p);
  }

  /** The inner loop of `Borders::CCA` over row `i`. */
  method ScanRow(binaryImg: Grid, labels: Grid, currentLabel: int, ghost seeds: seq<Coord>, i: int)
    returns (labels': Grid, currentLabel': int, ghost seeds': seq<Coord>)
    requires ScanState(binaryImg, labels, currentLabel, seeds, i, 0)
    ensures ScanState(binaryImg, labels', currentLabel', seeds', i, |binaryImg[i]|)
    ensures currentLabel <= currentLabel'
  {
    labels', currentLabel', seeds' := labels, currentLabel, seeds;
    var j := 0;
    while j < |binaryImg[0]|
      invariant 0 <= j <= |binaryImg[i]| == |binaryImg[0]|
      invariant ScanState(binaryImg, labels', currentLabel', seeds', i, j)
      invariant currentLabel <= currentLabel'
    {
      labels', currentLabel', seeds' := LabelPixel(binaryImg, labels', currentLabel', seeds', i, j);
      j := j + 1;
    }
  }

  /** A scan state at the end of row `i` is one at the start of row `i + 1`. */
  lemma NextRow(img: Grid, g: Grid, count: int, seeds: seq<Coord>, i: int)
    requires 0 <= i < |img| && ScanState(img, g, count, seeds, i, |img[i]|)
    ensures i + 1 < |img| ==> ScanState(img, g, count, seeds, i + 1, 0)
    ensures forall c :: IsForeground(img, c) && c.row <= i ==> At(g, c) != 0
    ensures Canonical(Scan(g[..i + 1])) && MaxLabel(Scan(g[..i + 1])) == count
  {
    ScanBeforeRowEnd(g, i);
    forall c | IsForeground(img, c) && c.row <= i
      ensures At(g, c) != 0
    {
      assert Before(c, Coord(i, |img[i]|));
    }
    if i + 1 < |img| {
      assert ScanBefore(g, i + 1, 0) == Scan(g[..i + 1]);
      forall c | IsForeground(img, c) && Before(c, Coord(i + 1, 0))
        ensures At(g, c) != 0
      {
        assert c.row <= i;
      }
    }
  }

  /** The all-zero label grid is the scan state before the first pixel. */
  lemma ScanStart(img: Grid, g: Grid)
    requires IsRaster(img) && g == seq(|img|, _ => seq(|img[0]|, _ => 0))
    ensures ScanState(img, g, 0, [], 0, 0)
  {
    assert ScanBefore(g, 0, 0) == [];
  }

  /** The scan state after the last pixel gives the contract of `Cca`. */
  lemma ScanFinished(img: Grid, g: Grid, count: int, seeds: seq<Coord>)
    requires IsRaster(img) && ScanState(img, g, count, seeds, |img| - 1, |img[|img| - 1]|)
    ensures SameShape(img, g)
    ensures forall c :: InGrid(img, c) ==> (At(g, c) == 0 <==> At(img, c) != Foreground)
    ensures forall c, d :: IsForeground(img, c) && IsForeground(img, d) && Adjacent8(c, d) ==>
              At(g, c) == At(g, d)
    ensures forall c :: InGrid(img, c) ==> 0 <= At(g, c) <= count
    ensures Canonical(Scan(g)) && MaxLabel(Scan(g)) == count
    ensures |seeds| == count
    ensures forall k :: 0 <= k < count ==> InGrid(img, seeds[k]) && At(g, seeds[k]) == k + 1
    ensures forall k, c :: 0 <= k < count && InGrid(img, c) && Before(c, seeds[k]) ==> At(g, c) != k + 1
    ensures forall k, c :: 0 <= k < count && InGrid(img, c) && At(g, c) == k + 1 ==> Reachable(img, seeds[k], c)
  {
    NextRow(img, g, count, seeds, |img| - 1);
    assert g[..|img|] == g;
    LabellingComplete(img, g);
    ReachBySeed(img, g, count, seeds);
  }

  /** Reachability from the seed of each pixel's label, restated per label. */
  lemma ReachBySeed(img: Grid, g: Grid, count: int, seeds: seq<Coord>)
    requires SameShape(img, g) && |seeds| == count
    requires forall c :: InGrid(img, c) ==> 0 <= At(g, c) <= count
    requires forall c :: InGrid(img, c) && At(g, c) != 0 ==> Reachable(img, seeds[At(g, c) - 1], c)
    ensures forall k, c :: 0 <= k < count && InGrid(img, c) && At(g, c) == k + 1 ==> Reachable(img, seeds[k], c)
  {
    forall k, c | 0 <= k < count && InGrid(img, c) && At(g, c) == k + 1
      ensures Reachable(img, seeds[k], c)
    {
      assert At(g, c) != 0;
    }
  }

  /** `Borders::CCA` on the all-zero label grid main.cpp:45 supplies. After it:
      a label is 0 exactly on background pixels; 8-adjacent foreground pixels
      share a label; labels are 1..currentLabel, each first met in the
      row-major scan at its seed, and they first appear in increasing order
      (the scan is canonical); every labelled pixel is reachable from its
      label's seed through foreground. The seeds are a ghost result. */
  method Cca(binaryImg: Grid) returns (labels: Grid, currentLabel: int, ghost seeds: seq<Coord>)
    requires IsRaster(binaryImg)
    ensures SameShape(binaryImg, labels)
    ensures forall c :: InGrid(binaryImg, c) ==> (At(labels, c) == 0 <==> At(binaryImg, c) != Foreground)
    ensures forall c, d :: IsForeground(binaryImg, c) && IsForeground(binaryImg, d) && Adjacent8(c, d) ==>
              At(labels, c) == At(labels, d)
    ensures forall c :: InGrid(binaryImg, c) ==> 0 <= At(labels, c) <= currentLabel
    ensures Canonical(Scan(labels)) && MaxLabel(Scan(labels)) == currentLabel
    ensures |seeds| == currentLabel
    ensures forall k :: 0 <= k < currentLabel ==>
              InGrid(binaryImg, seeds[k]) && At(labels, seeds[k]) == k + 1
    ensures forall k, c :: 0 <= k < currentLabel && InGrid(binaryImg, c) && Before(c, seeds[k]) ==>
              At(labels, c) != k + 1
    ensures forall k, c :: 0 <= k < currentLabel && InGrid(binaryImg, c) && At(labels, c) == k + 1 ==>
              Reachable(binaryImg, seeds[k], c)
  {
    var rows := |binaryImg|;
    var cols := |binaryImg[0]|;
    labels := seq(rows, _ => seq(cols, _ => 0));
    currentLabel := 0;
    seeds := [];
    ScanStart(binaryImg, labels);
    var i := 0;
    while i < rows
      invariant 0 <= i < rows
      invariant ScanState(binaryImg, labels, currentLabel, seeds, i, 0)
    {
      labels, currentLabel, seeds := ScanRow(binaryImg, labels, currentLabel, seeds, i);
      if i + 1 == rows {
        break;
      }
      NextRow(binaryImg, labels, currentLabel, seeds, i);
      i := i + 1;
    }
    ScanFinished(binaryImg, labels, currentLabel, seeds);
  }
}

=== FILE: boxes.dfy ===
/** `Borders::GetBoundingBox`: the extreme rows and columns of a list of
    pixel coordinates, starting from the `INT_MAX`/`INT_MIN` sentinels.
    The source declares it in class `Borders`; it has its own module here
    because it works on coordinate lists, not on label grids. */
module Boxes {
  import opened Grids

  /** `INT_MAX` and `INT_MIN` of the source's 32-bit `int`. */
  const IntMax: int := 0x7fff_ffff
  const IntMin: int := -0x8000_0000

  /** A box as the driver's tuple `(minX, minY, maxX, maxY)`, where the
      source's `X` is the row (`pair.first`) and `Y` the column. */
  datatype Box = Box(minRow: int, minCol: int, maxRow: int, maxCol: int)

  /** The box the source leaves for an empty contour. */
  const EmptyBox: Box := Box(IntMax, IntMax, IntMin, IntMin)

  /** Both coordinates fit the source's `int`. */
  predicate InIntRange(c: Coord) {
    IntMin <= c.row <= IntMax && IntMin <= c.col <= IntMax
  }

  /** `c` lies in the closed box `b`. */
  predicate Encloses(b: Box, c: Coord) {
    b.minRow <= c.row <= b.maxRow && b.minCol <= c.col <= b.maxCol
  }

  /** The loop of utils.cpp:169-182 over `contour`, folded from the back.
      The four updates are independent `if`s, so each extreme is tracked on
      its own. An empty contour leaves the sentinels; otherwise the box is
      proper and encloses every point (`BoundingBoxTight` shows each of its
      sides is touched by a point). */
  function BoundingBox(contour: seq<Coord>): (b: Box)
    requires forall k :: 0 <= k < |contour| ==> InIntRange(contour[k])
    ensures |contour| == 0 ==> b == EmptyBox
    ensures |contour| > 0 ==> b.minRow <= b.maxRow && b.minCol <= b.maxCol
    ensures forall k :: 0 <= k < |contour| ==> Encloses(b, contour[k])
  {
    if |contour| == 0 then EmptyBox
    else
      var prefix := contour[..|contour| - 1];
      var b := BoundingBox(prefix);
      var p := contour[|contour| - 1];
      assert forall k :: 0 <= k < |prefix| ==> contour[k] == prefix[k];
      Box(if p.row < b.minRow then p.row else b.minRow,
          if p.col < b.minCol then p.col else b.minCol,
          if p.row > b.maxRow then p.row else b.maxRow,
          if p.col > b.maxCol then p.col else b.maxCol)
  }

  /** Each side of the box of a non-empty contour is attained by a point:
      the sentinels never survive, because every coordinate fits an `int`. */
  lemma {:induction false} BoundingBoxTight(contour: seq<Coord>)
    requires forall k :: 0 <= k < |contour| ==> InIntRange(contour[k])
    requires |contour| > 0
    ensures exists k :: 0 <= k < |contour| && contour[k].row == BoundingBox(contour).minRow
    ensures exists k :: 0 <= k < |contour| && contour[k].col == BoundingBox(contour).minCol
    ensures exists k :: 0 <= k < |contour| && contour[k].row == BoundingBox(contour).maxRow
    ensures exists k :: 0 <= k < |contour| && contour[k].col == BoundingBox(contour).maxCol
  {
    var last := |contour| - 1;
    var prefix := contour[..last];
    var p := contour[last];
    var b := BoundingBox(contour);
    if |prefix| == 0 {
      assert contour[0].row == b.minRow && contour[0].col == b.minCol;
      assert contour[0].row == b.maxRow && contour[0].col == b.maxCol;
    } else {
      BoundingBoxTight(prefix);
      var pb := BoundingBox(prefix);
      var k1 :| 0 <= k1 < |prefix| && prefix[k1].row == pb.minRow;
      var k2 :| 0 <= k2 < |prefix| && prefix[k2].col == pb.minCol;
      var k3 :| 0 <= k3 < |prefix| && prefix[k3].row == pb.maxRow;
      var k4 :| 0 <= k4 < |prefix| && prefix[k4].col == pb.maxCol;
      assert contour[k1] == prefix[k1] && contour[k2] == prefix[k2];
      assert contour[k3] == prefix[k3] && contour[k4] == prefix[k4];
      var w1 := if p.row < pb.minRow then last else k1;
      var w2 := if p.col < pb.minCol then last else k2;
      var w3 := if p.row > pb.maxRow then last else k3;
      var w4 := if p.col > pb.maxCol then last else k4;
      assert contour[w1].row == b.minRow && contour[w2].col == b.minCol;
      assert contour[w3].row == b.maxRow && contour[w4].col == b.maxCol;
    }
  }

  /** The bounding box is the smallest box enclosing the contour: any box
      enclosing every point contains it. */
  lemma BoundingBoxLeast(contour: seq<Coord>, other: Box)
    requires forall k :: 0 <= k < |contour| ==> InIntRange(contour[k])
    requires |contour| > 0
    requires forall k :: 0 <= k < |contour| ==> Encloses(other, contour[k])
    ensures other.minRow <= BoundingBox(contour).minRow && BoundingBox(contour).maxRow <= other.maxRow
    ensures other.minCol <= BoundingBox(contour).minCol && BoundingBox(contour).maxCol <= other.maxCol
  {
    var b := BoundingBox(contour);
    BoundingBoxTight(contour);
    var k1 :| 0 <= k1 < |contour| && contour[k1].row == b.minRow;
    var k2 :| 0 <= k2 < |contour| && contour[k2].col == b.minCol;
    var k3 :| 0 <= k3 < |contour| && contour[k3].row == b.maxRow;
    var k4 :| 0 <= k4 < |contour| && contour[k4].col == b.maxCol;
    assert Encloses(other, contour[k1]) && Encloses(other, contour[k2]);
    assert Encloses(other, contour[k3]) && Encloses(other, contour[k4]);
  }

  /** The box depends only on the set of points, not on their order or
      repetition. */
  lemma BoundingBoxOfSameSet(a: seq<Coord>, b: seq<Coord>)
    requires forall k :: 0 <= k < |a| ==> InIntRange(a[k])
    requires forall k :: 0 <= k < |b| ==> InIntRange(b[k])
    requires forall c :: c in a <==> c in b
    ensures BoundingBox(a) == BoundingBox(b)
  {
    assert |a| > 0 ==> a[0] in b;
    assert |b| > 0 ==> b[0] in a;
    if |a| > 0 {
      forall k | 0 <= k < |b|
        ensures Encloses(BoundingBox(a), b[k])
      {
        assert b[k] in a;
      }
      forall k | 0 <= k < |a|
        ensures Encloses(BoundingBox(b), a[k])
      {
        assert a[k] in b;
      }
      BoundingBoxLeast(a, BoundingBox(b));
      BoundingBoxLeast(b, BoundingBox(a));
    }
  }
}

=== FILE: driver.dfy ===
/** The driver steps of main.cpp after labelling: the size filter, the box
    of each surviving component, the foreground count over its region and
    the acceptance test deciding which boxes are drawn. */
module Driver {
  import opened Grids
  import opened Grouping
  import opened Binarization
  import opened Boxes
  import opened Borders

  /** Components with fewer coordinates than this are discarded. */
  const MinComponentSize: nat := 5

  /** The size filter of main.cpp:66-72 as intended: keep the lists with at
      least five coordinates, in their original order. */
  function KeepLarge(lists: seq<seq<Coord>>): (kept: seq<seq<Coord>>)
    ensures |kept| <= |lists|
    ensures forall l :: l in kept <==> l in lists && |l| >= MinComponentSize
  {
    if |lists| == 0 then []
    else
      var last := lists[|lists| - 1];
      KeepLarge(lists[..|lists| - 1]) + (if |last| >= MinComponentSize then [last] else [])
  }

  /** Filtering commutes with concatenation, so the kept lists keep their
      relative order. */
  lemma {:induction false} KeepLargeAppend(a: seq<seq<Coord>>, b: seq<seq<Coord>>)
    ensures KeepLarge(a + b) == KeepLarge(a) + KeepLarge(b)
  {
    if |b| > 0 {
      var b' := b[..|b| - 1];
      assert (a + b)[..|a + b| - 1] == a + b';
      KeepLargeAppend(a, b');
    } else {
      assert a + b == a;
    }
  }

  /** Filtering twice is filtering once. */
  lemma {:induction false} KeepLargeIdempotent(lists: seq<seq<Coord>>)
    ensures KeepLarge(KeepLarge(lists)) == KeepLarge(lists)
  {
    if |lists| > 0 {
      var last := lists[|lists| - 1];
      KeepLargeIdempotent(lists[..|lists| - 1]);
      KeepLargeAppend(KeepLarge(lists[..|lists| - 1]), if |last| >= MinComponentSize then [last] else []);
    }
  }

  /** The image dimensions fit the source's `int`, as `cv::Mat` sizes do. */
  predicate FitsInt(img: Grid) {
    IsRaster(img) && |img| <= IntMax && |img[0]| <= IntMax
  }

  /** Every coordinate of `l` is a pixel of `img`. */
  predicate PointsIn(img: Grid, l: seq<Coord>) {
    forall j :: 0 <= j < |l| ==> InGrid(img, l[j])
  }

  /** The half-open region the driver hands to `countPixConcentration`:
      `cv::Rect(x, y, endX - x, endY - y)` spans rows minRow..maxRow - 1 and
      columns minCol..maxCol - 1 (main.cpp:97-98), inside the image. */
  predicate RoiInside(img: Grid, b: Box) {
    IsRaster(img) && 0 <= b.minRow <= b.maxRow <= |img| && 0 <= b.minCol <= b.maxCol <= |img[0]|
  }

  /** The box of a non-empty list of pixels of `img` has its half-open
      region inside `img`, and its last row and column are rows and
      columns of `img` too. */
  lemma BoxInside(img: Grid, l: seq<Coord>)
    requires FitsInt(img) && PointsIn(img, l) && |l| > 0
    ensures forall j :: 0 <= j < |l| ==> InIntRange(l[j])
    ensures RoiInside(img, BoundingBox(l))
    ensures BoundingBox(l).maxRow < |img| && BoundingBox(l).maxCol < |img[0]|
  {
    BoundingBoxTight(l);
  }

  /** The box tuples of main.cpp:75-80, one per list, in list order: box
      `k` encloses every coordinate of list `k` and lies inside any box that
      does. */
  function ExtractBoxes(lists: seq<seq<Coord>>): (boxes: seq<Box>)
    requires forall k, j :: 0 <= k < |lists| && 0 <= j < |lists[k]| ==> InIntRange(lists[k][j])
    ensures |boxes| == |lists|
    ensures forall k :: 0 <= k < |lists| ==> boxes[k] == BoundingBox(lists[k])
    ensures forall k, j :: 0 <= k < |lists| && 0 <= j < |lists[k]| ==> Encloses(boxes[k], lists[k][j])
  {
    seq(|lists|, k requires 0 <= k < |lists| => BoundingBox(lists[k]))
  }

  /** The sub-raster a region selects, like a `cv::Mat` ROI. */
  function Crop(img: Grid, b: Box): (roi: Grid)
    requires RoiInside(img, b)
    ensures IsRect(roi, b.maxRow - b.minRow, b.maxCol - b.minCol)
    ensures forall r, k :: 0 <= r < b.maxRow - b.minRow && 0 <= k < b.maxCol - b.minCol ==>
              roi[r][k] == img[b.minRow + r][b.minCol + k]
  {
    seq(b.maxRow - b.minRow, r requires 0 <= r < b.maxRow - b.minRow => img[b.minRow + r][b.minCol..b.maxCol])
  }

  /** Number of foreground pixels in the region of `b`. */
  function RoiCount(img: Grid, b: Box): nat
    requires RoiInside(img, b)
  {
    GridOccurrences(Crop(img, b), Foreground)
  }

  /** The counting loop of `countPixConcentration` (utils.cpp:317-324): the
      number of 255 pixels in the region, at most its area. The division by
      the area is folded into `Accepted`. */
  method CountPixConcentration(img: Grid, b: Box) returns (count: nat)
    requires RoiInside(img, b)
    ensures count == RoiCount(img, b)
    ensures count <= (b.maxRow - b.minRow) * (b.maxCol - b.minCol)
  {
    var height := b.maxRow - b.minRow;
    var width := b.maxCol - b.minCol;
    ghost var roi := Crop(img, b);
    count := 0;
    var k := 0;
    while k < height
      invariant 0 <= k <= height
      invariant count == GridOccurrences(roi[..k], Foreground)
    {
      var j := 0;
      while j < width
        invariant 0 <= j <= width
        invariant count == GridOccurrences(roi[..k], Foreground) + Occurrences(roi[k][..j], Foreground)
      {
        assert roi[k][..j + 1][..j] == roi[k][..j];
        if img[b.minRow + k][b.minCol + j] == Foreground {
          count := count + 1;
        }
        j := j + 1;
      }
      assert roi[k][..width] == roi[k];
      assert roi[..k + 1][..k] == roi[..k];
      k := k + 1;
    }
    assert roi[..height] == roi;
    GridOccurrencesAtMostPixels(roi, Foreground);
    PixelCountOfRect(roi, height, width);
  }

  /** The acceptance test of main.cpp:99-103 on a box and the foreground
      count of its region: diagonal above 5, height and width above 3, and
      a foreground fraction of at least one fifth. `sqrt(d) > 5` is `d > 25`
      on integers. The float quotient `count / area` is compared with the
      double 0.20; a quotient of exactly 1/5 rounds to the float just above
      0.2, so exactly one fifth is accepted. */
  predicate Accepted(b: Box, count: int) {
    var height := b.maxRow - b.minRow;
    var width := b.maxCol - b.minCol;
    width * width + height * height > 25 && height > 3 && width > 3 && 5 * count >= height * width
  }

  /** The diagonal test adds nothing: height and width above 3 already give
      a squared diagonal of at least 32. */
  lemma DiagonalImplied(b: Box, count: int)
    ensures Accepted(b, count) <==>
              b.maxRow - b.minRow > 3 && b.maxCol - b.minCol > 3 &&
              5 * count >= (b.maxRow - b.minRow) * (b.maxCol - b.minCol)
  {
    var height := b.maxRow - b.minRow;
    var width := b.maxCol - b.minCol;
    if height > 3 && width > 3 {
      assert height * height >= 4 * height >= 16;
      assert width * width >= 4 * width >= 16;
    }
  }

  /** In real arithmetic the count test is "fraction at least one fifth". */
  lemma ConcentrationAsFraction(count: nat, area: int)
    requires area > 0
    ensures 5 * count >= area <==> (count as real) / (area as real) >= 0.2
  {
    var q := (count as real) / (area as real);
    assert q * (area as real) == count as real;
    if 5 * count >= area {
      assert (5 * count) as real >= area as real;
    } else {
      assert (5 * count) as real < area as real;
    }
  }

  /** The box of `l` is drawn: `l` survives the size filter and its box
      passes the acceptance test. */
  predicate Chosen(img: Grid, l: seq<Coord>, b: Box)
    requires FitsInt(img) && PointsIn(img, l)
  {
    |l| >= MinComponentSize &&
    (BoxInside(img, l);
     b == BoundingBox(l) && Accepted(b, RoiCount(img, b)))
  }

  /** The boxes drawn from `lists`, in list order: the reference filter. */
  function Selected(img: Grid, lists: seq<seq<Coord>>): (boxes: seq<Box>)
    requires FitsInt(img)
    requires forall k :: 0 <= k < |lists| ==> PointsIn(img, lists[k])
    ensures |boxes| <= |lists|
    ensures forall b :: b in boxes <==> exists k :: 0 <= k < |lists| && Chosen(img, lists[k], b)
  {
    if |lists| == 0 then []
    else
      var prefix := lists[..|lists| - 1];
      var l := lists[|lists| - 1];
      assert forall k :: 0 <= k < |prefix| ==> prefix[k] == lists[k];
      var b := if |l| >= MinComponentSize then (BoxInside(img, l); BoundingBox(l)) else EmptyBox;
      Selected(img, prefix) + (if Chosen(img, l, b) then [b] else [])
  }

  /** main.cpp:75-104 on the filtered lists: take each list's box, count
      the foreground in its region and keep the accepted boxes, in list
      order. The size test is repeated per list, so the result does not
      depend on whether the lists were filtered first (`SelectedAfterFilter`). */
  method SelectBoxes(img: Grid, lists: seq<seq<Coord>>) returns (boxes: seq<Box>)
    requires FitsInt(img)
    requires forall k :: 0 <= k < |lists| ==> PointsIn(img, lists[k])
    ensures forall b :: b in boxes <==> exists k :: 0 <= k < |lists| && Chosen(img, lists[k], b)
    ensures boxes == Selected(img, lists)
  {
    forall k, j | 0 <= k < |lists| && 0 <= j < |lists[k]|
      ensures InIntRange(lists[k][j])
    {
      assert InGrid(img, lists[k][j]);
    }
    var candidates := ExtractBoxes(lists);
    boxes := [];
    var k := 0;
    while k < |lists|
      invariant 0 <= k <= |lists|
      invariant boxes == Selected(img, lists[..k])
    {
      var l := lists[k];
      assert lists[..k + 1][..k] == lists[..k];
      if |l| >= MinComponentSize {
        BoxInside(img, l);
        var b := candidates[k];
        var count := CountPixConcentration(img, b);
        if Accepted(b, count) {
          boxes := boxes + [b];
        }
      }
      k := k + 1;
    }
    assert lists[..k] == lists;
  }

  /** Dropping the small lists first changes nothing: the size filter of
      main.cpp:66-72 and the box selection agree. */
  lemma {:induction false} SelectedAfterFilter(img: Grid, lists: seq<seq<Coord>>)
    requires FitsInt(img)
    requires forall k :: 0 <= k < |lists| ==> PointsIn(img, lists[k])
    ensures forall k :: 0 <= k < |KeepLarge(lists)| ==> PointsIn(img, KeepLarge(lists)[k])
    ensures Selected(img, KeepLarge(lists)) == Selected(img, lists)
  {
    var kept := KeepLarge(lists);
    forall k | 0 <= k < |kept|
      ensures PointsIn(img, kept[k])
    {
      assert kept[k] in lists;
    }
    if |lists| > 0 {
      var prefix := lists[..|lists| - 1];
      var l := lists[|lists| - 1];
      assert forall k :: 0 <= k < |prefix| ==> prefix[k] == lists[k];
      SelectedAfterFilter(img, prefix);
      var keptPrefix := KeepLarge(prefix);
      if |l| >= MinComponentSize {
        assert kept == keptPrefix + [l];
        assert kept[..|kept| - 1] == keptPrefix;
      } else {
        assert kept == keptPrefix;
      }
    }
  }

  /** Lists holding exactly the pixels of given labels hold pixels of the
      image only. */
  lemma ListsInImage(img: Grid, labels: Grid, lists: seq<seq<Coord>>)
    requires SameShape(img, labels)
    requires forall k, c :: 0 <= k < |lists| ==> (c in lists[k] <==> InGrid(img, c) && At(labels, c) == k + 1)
    ensures forall k :: 0 <= k < |lists| ==> PointsIn(img, lists[k])
  {
    forall k | 0 <= k < |lists|
      ensures PointsIn(img, lists[k])
    {
      forall j | 0 <= j < |lists[k]|
        ensures InGrid(img, lists[k][j])
      {
        assert lists[k][j] in lists[k];
      }
    }
  }

  /** The seed of label `k + 1` is in list `k`, and every pixel of list `k`
      is reachable from it. */
  lemma SeedsInLists(img: Grid, labels: Grid, lists: seq<seq<Coord>>, seeds: seq<Coord>)
    requires SameShape(img, labels) && |seeds| == |lists|
    requires forall k :: 0 <= k < |lists| ==> InGrid(img, seeds[k]) && At(labels, seeds[k]) == k + 1
    requires forall k, c :: 0 <= k < |lists| && InGrid(img, c) && At(labels, c) == k + 1 ==> Reachable(img, seeds[k], c)
    requires forall k, c :: 0 <= k < |lists| ==> (c in lists[k] <==> InGrid(img, c) && At(labels, c) == k + 1)
    ensures forall k :: 0 <= k < |lists| ==> seeds[k] in lists[k]
    ensures forall k, c :: 0 <= k < |lists| && c in lists[k] ==> Reachable(img, seeds[k], c)
  {
    forall k, c | 0 <= k < |lists| && c in lists[k]
      ensures Reachable(img, seeds[k], c)
    {
      assert InGrid(img, c) && At(labels, c) == k + 1;
    }
  }

  /** Lists holding exactly the pixels of each label of a CCA result are
      closed under 8-adjacency within the foreground. */
  lemma ListsClosed(img: Grid, labels: Grid, lists: seq<seq<Coord>>)
    requires SameShape(img, labels)
    requires forall c, d :: IsForeground(img, c) && IsForeground(img, d) && Adjacent8(c, d) ==>
               At(labels, c) == At(labels, d)
    requires forall c :: InGrid(img, c) && At(labels, c) != 0 ==> At(img, c) == Foreground
    requires forall k, c :: 0 <= k < |lists| ==> (c in lists[k] <==> InGrid(img, c) && At(labels, c) == k + 1)
    ensures forall k, c, d :: 0 <= k < |lists| && c in lists[k] && IsForeground(img, d) && Adjacent8(c, d) ==>
              d in lists[k]
  {
    forall k, c, d | 0 <= k < |lists| && c in lists[k] && IsForeground(img, d) && Adjacent8(c, d)
      ensures d in lists[k]
    {
      assert IsForeground(img, c);
    }
  }

  /** Some pixel of `l` reaches every pixel of `l` through foreground. */
  ghost predicate Connected(img: Grid, l: seq<Coord>) {
    exists s :: s in l && forall c :: c in l ==> Reachable(img, s, c)
  }

  /** Each such list is connected: every pixel of it is reachable through
      foreground from the label's seed, which belongs to the list. */
  lemma ListsConnected(img: Grid, lists: seq<seq<Coord>>, seeds: seq<Coord>)
    requires |seeds| == |lists|
    requires forall k :: 0 <= k < |lists| ==> seeds[k] in lists[k]
    requires forall k, c :: 0 <= k < |lists| && c in lists[k] ==> Reachable(img, seeds[k], c)
    ensures forall k :: 0 <= k < |lists| ==> Connected(img, lists[k])
  {
    forall k | 0 <= k < |lists|
      ensures Connected(img, lists[k])
    {
      var s := seeds[k];
      assert s in lists[k] && forall c :: c in lists[k] ==> Reachable(img, s, c);
    }
  }

  /** The whole discrete pipeline from a binary image: label it, group the
      labels, then select boxes. Every foreground pixel carries a label that
      has a list, each list `k` holds exactly the pixels labelled `k + 1`,
      those form one 8-connected foreground component, and
      the boxes drawn are exactly those chosen from the lists. */
  method DetectBlobs(binaryImg: Grid) returns (labels: Grid, lists: seq<seq<Coord>>, boxes: seq<Box>)
    requires FitsInt(binaryImg)
    ensures SameShape(binaryImg, labels)
    ensures forall c :: InGrid(binaryImg, c) ==> (At(labels, c) == 0 <==> At(binaryImg, c) != Foreground)
    ensures forall c :: IsForeground(binaryImg, c) ==> 1 <= At(labels, c) <= |lists|
    ensures Canonical(Scan(labels)) && |lists| == MaxLabel(Scan(labels))
    ensures forall k :: 0 <= k < |lists| ==> |lists[k]| > 0
    ensures forall k, c :: 0 <= k < |lists| ==> (c in lists[k] <==> InGrid(binaryImg, c) && At(labels, c) == k + 1)
    ensures forall k :: 0 <= k < |lists| ==> PointsIn(binaryImg, lists[k])
    ensures forall k, c, d :: 0 <= k < |lists| && c in lists[k] && IsForeground(binaryImg, d) && Adjacent8(c, d) ==>
              d in lists[k]
    ensures forall k :: 0 <= k < |lists| ==> Connected(binaryImg, lists[k])
    ensures forall b :: b in boxes <==> exists k :: 0 <= k < |lists| && Chosen(binaryImg, lists[k], b)
    ensures boxes == Selected(binaryImg, lists)
  {
    var count;
    ghost var seeds;
    labels, count, seeds := Cca(binaryImg);
    GroupLabelsSound(labels);
    lists := GroupLabels(labels).value;
    ListsInImage(binaryImg, labels, lists);
    ListsClosed(binaryImg, labels, lists);
    SeedsInLists(binaryImg, labels, lists, seeds);
    ListsConnected(binaryImg, lists, seeds);
    SelectedAfterFilter(binaryImg, lists);
    boxes := SelectBoxes(binaryImg, KeepLarge(lists));
  }
}

=== FILE: grids.dfy ===
/** Shared vocabulary for the integer rasters of the detector: positions,
    nested-row grids, bounds and 8-neighbourhoods. The source's bounds test
    `Borders::CheckBoundary` lives here as `CheckBoundary`, since every
    module uses it; the rest of the `Borders` class is module `Borders`,
    except `GetBoundingBox`, which is module `Boxes`. */
module Grids {

  /** A pixel position. `row` indexes the outer vector and `col` the inner
      one, as in the source's `(i, j)` pairs (its `x` is a row, its `y` a
      column). */
  datatype Coord = Coord(row: int, col: int)

  /** A raster stored as rows, like `std::vector<std::vector<T>>`. */
  type Grid = seq<seq<int>>

  /** The value a foreground pixel has in a binarised raster. */
  const Foreground: int := 255

  /** `g` has exactly `rows` rows of exactly `cols` cells. */
  predicate IsRect(g: Grid, rows: int, cols: int) {
    |g| == rows && forall i :: 0 <= i < |g| ==> |g[i]| == cols
  }

  /** Width of a raster read, as the source does, from its first row. */
  function Width(g: Grid): nat {
    if |g| == 0 then 0 else |g[0]|
  }

  /** A rectangular raster with at least one row (the source reads `img[0]`). */
  predicate IsRaster(g: Grid) {
    |g| > 0 && IsRect(g, |g|, |g[0]|)
  }

  /** Two grids with the same row count and the same length row by row. */
  predicate SameShape(a: Grid, b: Grid) {
    |a| == |b| && forall i :: 0 <= i < |a| ==> |a[i]| == |b[i]|
  }

  /** `Borders::CheckBoundary`: `(x, y)` lies inside a `rows` by `cols` raster. */
  predicate CheckBoundary(x: int, y: int, rows: int, cols: int) {
    x >= 0 && y >= 0 && x < rows && y < cols
  }

  predicate InGrid(g: Grid, c: Coord) {
    0 <= c.row < |g| && 0 <= c.col < |g[c.row]|
  }

  function At(g: Grid, c: Coord): int
    requires InGrid(g, c)
  {
    g[c.row][c.col]
  }

  /** The grid with the one cell `c` overwritten by `v`. */
  function Put(g: Grid, c: Coord, v: int): (r: Grid)
    requires InGrid(g, c)
    ensures SameShape(g, r)
    ensures At(r, c) == v
    ensures forall d :: InGrid(g, d) && d != c ==> At(r, d) == At(g, d)
  {
    g[c.row := g[c.row][c.col := v]]
  }

  /** `a` and `b` lie in one 3x3 window: the cells the nested offset loops of
      the flood fill visit around `a`. The window includes `a` itself. */
  predicate Adjacent8(a: Coord, b: Coord) {
    -1 <= a.row - b.row <= 1 && -1 <= a.col - b.col <= 1
  }

  lemma CheckBoundaryInGrid(g: Grid, x: int, y: int)
    requires IsRaster(g)
    ensures CheckBoundary(x, y, |g|, |g[0]|) <==> InGrid(g, Coord(x, y))
  {
  }
}

=== FILE: grouping.dfy ===
/** The row-major view of a label grid and the driver's grouping of it into
    one coordinate list per label (main.cpp's `labelsCoords`). */
module Grouping {
  import opened Grids

  /** One cell of a label grid as the row-major scan meets it. */
  datatype Entry = Entry(at: Coord, id: int)

  /** The cells of row `r`, left to right. */
  function RowEntries(r: int, row: seq<int>): (s: seq<Entry>)
    ensures |s| == |row|
    ensures forall k :: 0 <= k < |row| ==> s[k] == Entry(Coord(r, k), row[k])
  {
    seq(|row|, k requires 0 <= k < |row| => Entry(Coord(r, k), row[k]))
  }

  /** Every cell of `g` in row-major order: the order of the nested `i`/`j`
      loops of both `Borders::CCA` and the grouping loop. */
  function Scan(g: Grid): seq<Entry> {
    if |g| == 0 then [] else Scan(g[..|g| - 1]) + RowEntries(|g| - 1, g[|g| - 1])
  }

  /** The cells the row-major scan has passed before reaching `(i, j)`. */
  function ScanBefore(g: Grid, i: int, j: int): seq<Entry>
    requires 0 <= i < |g| && 0 <= j <= |g[i]|
  {
    Scan(g[..i]) + RowEntries(i, g[i][..j])
  }

  /** The largest label seen so far (0 for none), i.e. the number of lists
      the grouping loop has allocated. */
  function MaxLabel(s: seq<Entry>): int {
    if |s| == 0 then 0
    else
      var m := MaxLabel(s[..|s| - 1]);
      if s[|s| - 1].id > m then s[|s| - 1].id else m
  }

  /** Labels are non-negative and each one is at most one more than every
      label before it: new labels first appear in increasing order 1, 2, 3... */
  predicate Canonical(s: seq<Entry>) {
    |s| == 0 ||
    (Canonical(s[..|s| - 1]) && 0 <= s[|s| - 1].id <= MaxLabel(s[..|s| - 1]) + 1)
  }

  /** The coordinates carrying `label`, in scan order. */
  function Members(s: seq<Entry>, id: int): seq<Coord> {
    if |s| == 0 then []
    else Members(s[..|s| - 1], id) + (if s[|s| - 1].id == id then [s[|s| - 1].at] else [])
  }

  /** One step of the grouping loop (main.cpp:54-61). A label larger than the
      current number of lists allocates one new list; `int > size_t` converts a
      negative label to a huge unsigned value, so a negative label allocates
      too. A non-zero label then appends its coordinate to list `label - 1`;
      an index outside the vector is undefined behaviour, modelled as `None`. */
  function GroupStep(lists: seq<seq<Coord>>, e: Entry): (r: Option<seq<seq<Coord>>>)
    ensures r.Some? <==> 0 <= e.id <= |lists| + 1
    ensures r.Some? ==> |r.value| == (if e.id > |lists| then e.id else |lists|)
    ensures r.Some? && e.id > 0 ==>
              r.value[e.id - 1] == (if e.id > |lists| then [] else lists[e.id - 1]) + [e.at]
    ensures r.Some? ==> forall k :: 0 <= k < |lists| && k != e.id - 1 ==> r.value[k] == lists[k]
  {
    var grown := if e.id < 0 || e.id > |lists| then lists + [[]] else lists;
    if e.id == 0 then Some(grown)
    else if 0 <= e.id - 1 < |grown| then Some(grown[e.id - 1 := grown[e.id - 1] + [e.at]])
    else None
  }

  datatype Option<T> = None | Some(value: T)

  /** The grouping loop over a whole scan. It stays in range exactly on a
      canonical scan, and then allocates one list per label up to the
      largest. */
  function Group(s: seq<Entry>): (r: Option<seq<seq<Coord>>>)
    ensures r.Some? <==> Canonical(s)
    ensures r.Some? ==> |r.value| == MaxLabel(s)
  {
    if |s| == 0 then Some([])
    else
      match Group(s[..|s| - 1])
      case None => None
      case Some(lists) => GroupStep(lists, s[|s| - 1])
  }

  /** Every label of a canonical scan lies in 0..MaxLabel. */
  lemma {:induction false} LabelsBelowMax(s: seq<Entry>)
    requires Canonical(s)
    ensures MaxLabel(s) >= 0
    ensures forall k :: 0 <= k < |s| ==> 0 <= s[k].id <= MaxLabel(s)
  {
    if |s| > 0 {
      var p := s[..|s| - 1];
      LabelsBelowMax(p);
      assert forall k :: 0 <= k < |p| ==> s[k] == p[k];
    }
  }

  /** A label above the maximum has no members. */
  lemma {:induction false} MembersAboveMax(s: seq<Entry>, id: int)
    requires id > MaxLabel(s)
    ensures Members(s, id) == []
  {
    if |s| > 0 {
      MembersAboveMax(s[..|s| - 1], id);
    }
  }

  /** The growth trick at main.cpp:54-60 is safe on a canonical scan: the
      grouping never indexes out of range, allocates exactly MaxLabel lists,
      and list `L - 1` holds exactly the coordinates labelled `L`, in scan
      order, and is never empty. */
  lemma {:induction false} GroupCanonical(s: seq<Entry>)
    requires Canonical(s)
    ensures Group(s).Some?
    ensures |Group(s).value| == MaxLabel(s)
    ensures forall l :: 1 <= l <= MaxLabel(s) ==>
              Group(s).value[l - 1] == Members(s, l) && |Members(s, l)| > 0
  {
    if |s| > 0 {
      var p := s[..|s| - 1];
      var e := s[|s| - 1];
      GroupCanonical(p);
      LabelsBelowMax(p);
      var lists := Group(p).value;
      var m := MaxLabel(p);
      if e.id == m + 1 {
        MembersAboveMax(p, m + 1);
      }
      forall l | 1 <= l <= MaxLabel(s)
        ensures Group(s).value[l - 1] == Members(s, l) && |Members(s, l)| > 0
      {
        if l <= m {
          assert Group(s).value[l - 1] == Members(s, l);
        }
      }
    }
  }

  /** A canonical scan uses every label from 1 to its maximum. */
  lemma LabelsContiguous(s: seq<Entry>, l: int)
    requires Canonical(s)
    requires 1 <= l <= MaxLabel(s)
    ensures exists k :: 0 <= k < |s| && s[k].id == l
  {
    GroupCanonical(s);
    MembersWitness(s, l);
  }

  /** A member of the list of `label` is the coordinate of some scanned cell
      with that label, and conversely. */
  lemma {:induction false} MembersWitness(s: seq<Entry>, id: int)
    ensures forall c :: c in Members(s, id) <==> exists k :: 0 <= k < |s| && s[k] == Entry(c, id)
    ensures |Members(s, id)| > 0 ==> exists k :: 0 <= k < |s| && s[k].id == id
  {
    if |s| > 0 {
      var p := s[..|s| - 1];
      MembersWitness(p, id);
      assert forall k :: 0 <= k < |p| ==> s[k] == p[k];
      if |Members(s, id)| > 0 && s[|s| - 1].id != id {
        assert |Members(p, id)| > 0;
      }
    }
  }

  /** The first cell carrying label `l + 1` comes after some cell carrying
      `l`: labels first occur in increasing order. */
  lemma {:induction false} FirstOccurrencesIncrease(s: seq<Entry>, k: int)
    requires Canonical(s)
    requires 0 <= k < |s| && s[k].id > 1
    ensures exists k' :: 0 <= k' < k && s[k'].id == s[k].id - 1
  {
    if k == |s| - 1 {
      var p := s[..|s| - 1];
      LabelsBelowMax(p);
      assert s[k].id - 1 <= MaxLabel(p);
      LabelsContiguous(p, s[k].id - 1);
      var k' :| 0 <= k' < |p| && p[k'].id == s[k].id - 1;
      assert s[k'] == p[k'];
    } else {
      var p := s[..|s| - 1];
      assert p[k] == s[k];
      FirstOccurrencesIncrease(p, k);
      var k' :| 0 <= k' < k && p[k'].id == p[k].id - 1;
      assert s[k'] == p[k'];
    }
  }

  /** The scan holds exactly one entry per cell of the grid, carrying that
      cell's label. */
  lemma {:induction false} ScanCells(g: Grid)
    ensures forall e :: e in Scan(g) <==> InGrid(g, e.at) && e.id == At(g, e.at)
  {
    if |g| > 0 {
      var p := g[..|g| - 1];
      ScanCells(p);
      forall e
        ensures e in Scan(g) <==> InGrid(g, e.at) && e.id == At(g, e.at)
      {
        if e in Scan(p) {
          assert g[e.at.row] == p[e.at.row];
        }
        if InGrid(g, e.at) && e.id == At(g, e.at) && e.at.row < |g| - 1 {
          assert g[e.at.row] == p[e.at.row];
          assert InGrid(p, e.at);
        }
        if InGrid(g, e.at) && e.id == At(g, e.at) && e.at.row == |g| - 1 {
          assert RowEntries(|g| - 1, g[|g| - 1])[e.at.col] == e;
        }
      }
    }
  }

  /** The driver's grouping applied to a label grid (main.cpp:48-63). The
      source's inner loop runs to `labels[0].size()` on every row while `Scan`
      runs each row to its own length; the two agree on rectangular grids,
      and the only label grid (main.cpp:45) is rectangular. */
  function GroupLabels(labels: Grid): (r: Option<seq<seq<Coord>>>)
    ensures r.Some? <==> Canonical(Scan(labels))
    ensures r.Some? ==> |r.value| == MaxLabel(Scan(labels))
  {
    Group(Scan(labels))
  }

  /** On a label grid whose scan is canonical (what `Borders::CCA` leaves),
      the grouping succeeds, makes one list per label 1..MaxLabel, and list
      `L - 1` is non-empty and holds exactly the cells labelled `L`. */
  lemma GroupLabelsSound(labels: Grid)
    requires Canonical(Scan(labels))
    ensures GroupLabels(labels).Some?
    ensures |GroupLabels(labels).value| == MaxLabel(Scan(labels))
    ensures forall k :: 0 <= k < MaxLabel(Scan(labels)) ==>
              |GroupLabels(labels).value[k]| > 0 &&
              forall c :: c in GroupLabels(labels).value[k] <==> InGrid(labels, c) && At(labels, c) == k + 1
  {
    var s := Scan(labels);
    GroupCanonical(s);
    ScanCells(labels);
    forall k | 0 <= k < MaxLabel(s)
      ensures |GroupLabels(labels).value[k]| > 0
      ensures forall c :: c in GroupLabels(labels).value[k] <==> InGrid(labels, c) && At(labels, c) == k + 1
    {
      var l := k + 1;
      assert GroupLabels(labels).value[l - 1] == Members(s, l);
      MembersWitness(s, l);
      forall c
        ensures c in Members(s, l) <==> InGrid(labels, c) && At(labels, c) == l
      {
        if InGrid(labels, c) && At(labels, c) == l {
          assert Entry(c, l) in s;
        }
      }
    }
  }

  /** Appending one cell to the scan prefix of a row (used by the labeller). */
  lemma ScanBeforeStep(g: Grid, i: int, j: int)
    requires 0 <= i < |g| && 0 <= j < |g[i]|
    ensures ScanBefore(g, i, j + 1) == ScanBefore(g, i, j) + [Entry(Coord(i, j), g[i][j])]
  {
    assert g[i][..j + 1][..j] == g[i][..j];
  }

  /** Finishing a row moves the scan prefix to the start of the next row. */
  lemma ScanBeforeRowEnd(g: Grid, i: int)
    requires 0 <= i < |g|
    ensures ScanBefore(g, i, |g[i]|) == Scan(g[..i + 1])
  {
    assert g[..i + 1][..i] == g[..i];
    assert g[i][..|g[i]|] == g[i];
  }
}
